=== FILE: README.md ===
# UK demand and temperature cleaning, and the demand dashboard, in Dafny

This project models the logic of two scripts. The first, `DataProcessor`, consolidates six yearly files of
UK electricity demand into 6-hour means, filters a temperature file to the same years, joins the two and
fills temperature gaps. The second, `DashApp`, pages through the cleaned table and draws a grouped
chart of one page. The pandas and Dash operations are written out as functions over sequences of
records, and the properties the scripts rely on are proved about them.

Conventions of the model:

- A timestamp is an integer number of minutes since 0001-01-01 00:00 in the proleptic Gregorian
  calendar. A date is `(year, month, day)`, and its day number counts days from 0001-01-01.
- Measurements are `real`. A missing value (NaN, NaT or an empty cell) is `None`. This includes an
  empty `SETTLEMENT_PERIOD`: such a row gets no timestamp, so it lies in no window.
- pandas' timestamp range is taken as the whole years 1678 to 2261. A date outside it does not parse.
  Line 33 first turns every present period into an offset of `(period - 1) * 30` minutes. A
  `Timedelta` is a 64-bit nanosecond count, so an offset beyond ±153,722,867 minutes raises, whatever
  the row's date, and the consolidation ends with `OffsetOverflow`. Adding an offset to a date can
  also leave the timestamp range. pandas then raises an overflow error, and the consolidation ends
  with `TimestampOverflow`.
- Modules follow the scripts' structure:
  - `Wrappers`: `Option` and `Result`.
  - `Digits`: digit strings and letter case.
  - `Calendar`: leap years, day numbers and their inverse.
  - `DateFormat`: the `%Y-%m-%d` and `%d-%b-%Y` formats, with strptime's parsing rules.
  - `Demand`: `consolidate_demand`.
  - `Temperature`: `creating_temperature_data`.
  - `Combine`: `combining_demand_temperature`.
  - `Pagination`: `PAGE_SIZE`, `max_value` and `update_table`.
  - `Chart`: `update_chart`.

Points of the code worth knowing when reading the model:

- **Pages.** `update_table` and `update_chart` replace only a missing (`None`) page by page 1
  (lines 135-136 and 148-149). Any other page goes straight into `iloc`, with Python's slice rules.
  So page 0 is empty, a page past the end is empty, and a negative page counts from the end.
  `Pagination.Page` models this.
- **Letter case of the restored date.** The 2022 dates are upper-cased after reformatting
  (`01-JAN-2022`). The `SETTLEMENT_DATE` put back after resampling is not upper-cased (`01-Jan-2017`).
  `%b` parses either form.
- **Settlement periods 49 and 50.** On the long clock-change day these periods get timestamps on the
  next calendar day, because the timestamp is the date plus `(period - 1) * 30` minutes with no time
  zone. They then fall into the next day's first window. The same-day property (`PeriodWithinDay`) is
  stated for periods 1 to 48. The six-year row count (`SixYearWindowCount`) only asks that every
  timestamp fall in 2017-2022, and `LongDayStamp` shows that periods 49 and 50 of those years do.

## Model

| member | source | states |
|---|---|---|
| Digits.PadRoundTrip | src/data-cleaning.py:26 | a zero-padded `%d` or `%Y` field has exactly the field width, holds only digits and reads back as the same number |
| Digits.LowerOfUpper | src/data-cleaning.py:26 | lower-casing an upper-cased string gives the lower-cased original, so upper-casing cannot change how `%b` matches |
| Digits.UpperAppend | src/data-cleaning.py:26 | `str.upper` works piecewise over a concatenation |
| Calendar.YearStep | src/data-cleaning.py:41-42 | the first day of year y+1 comes 365 days after that of year y, or 366 in a leap year |
| Calendar.YearSpan | src/data-cleaning.py:41-42 | the days from 1 January of year a to 1 January of year b are the sum of the year lengths in between |
| Calendar.DaysBeforeYearMonotone | src/data-cleaning.py:41-42 | each year adds at least 365 days, so later years start later |
| Calendar.WithinYear | src/data-cleaning.py:33 | a valid date's day number lies between 1 January of its year and 1 January of the next |
| Calendar.DateOfDay | src/data-cleaning.py:38 | every day number names a valid date whose day number is that number |
| Calendar.SameDaySameYear | src/data-cleaning.py:38 | two valid dates with the same day number are in the same year |
| Calendar.SameDayWithinYear | src/data-cleaning.py:38 | within one year, the day number determines the month and the day |
| Calendar.DateOfDayNumber | src/data-cleaning.py:38 | converting a valid date to its day number and back gives the same date |
| Calendar.NewYearAfterNewYear | src/data-cleaning.py:41-42 | consecutive 1 Januaries are one year length apart |
| Calendar.SixYearsOfDays | src/data-cleaning.py:41-42 | 2017-01-01 to 2023-01-01 is 365 * 5 + 366 = 2191 days |
| DateFormat.MonthNumberOfAbbrev | src/data-cleaning.py:31 | `%b` reads every English month abbreviation, in either case, as its month number |
| DateFormat.ParseIso | src/data-cleaning.py:24 | a `%Y-%m-%d` parse that succeeds yields a valid date inside the timestamp range |
| DateFormat.ParseDmy | src/data-cleaning.py:31 | a `%d-%b-%Y` parse that succeeds yields a valid date inside the timestamp range |
| DateFormat.IsoLayout | src/data-cleaning.py:24 | `%Y-%m-%d` splits `YYYY-MM-DD` into exactly its year, month and day fields |
| DateFormat.DmyLayout | src/data-cleaning.py:31 | `%d-%b-%Y` splits `DD-Mon-YYYY` into exactly its day, month-name and year fields |
| DateFormat.IsoRoundTrip | src/data-cleaning.py:24 | every representable date written as `YYYY-MM-DD` parses back to itself |
| DateFormat.StrftimeShape | src/data-cleaning.py:26 | `%d-%b-%Y` output is eleven characters, with dashes at positions 2 and 6 and the month abbreviation between them |
| DateFormat.UpperOfStrftime | src/data-cleaning.py:26 | upper-casing `DD-Mon-YYYY` upper-cases only the month abbreviation |
| DateFormat.StrftimeRoundTrip | src/data-cleaning.py:26-31 | `%d-%b-%Y` parses a strftime'd date back to the same date, both as written and upper-cased |
| DateFormat.Reformat2022 | src/data-cleaning.py:24-26 | a 2022 cell is rewritten exactly when it parses as `%Y-%m-%d`; the rewrite parses as `%d-%b-%Y` to the same date and carries the upper-case month; a missing or bad cell becomes missing and raises nothing |
| DateFormat.NormaliseDate | src/data-cleaning.py:31 | combining the coerced parse with itself is the plain parse: missing stays missing, and a bad string becomes missing |
| DateFormat.ReformatThenNormalise | src/data-cleaning.py:24-31 | a 2022 date has the same calendar date after the reformat and the combined parse as after its own ISO parse |
| DateFormat.NormaliseStrftime | src/data-cleaning.py:31 | an upper-case `DD-MON-YYYY` cell from the other years parses to its own date |
| Demand.ReformatTable | src/data-cleaning.py:24-26 | the 2022 table keeps its rows, periods and readings; only the date column changes, and the new column parses to the old dates |
| Demand.Concat | src/data-cleaning.py:29 | the concatenation has as many rows as all tables together |
| Demand.TotalRowsAppend | src/data-cleaning.py:29 | appending a table adds its row count |
| Demand.ConcatPosition | src/data-cleaning.py:29 | row j of table i sits after all rows of earlier tables, so order is by file, then by row |
| Demand.Combined | src/data-cleaning.py:22-29 | the six files concatenated, with 2022 reformatted, have the sum of the six row counts |
| Demand.BucketStart | src/data-cleaning.py:35 | a minute's 6-hour window starts on a multiple of 360 minutes (aligned to midnight), at or before it and less than 360 minutes before it |
| Demand.BucketIndexMonotone | src/data-cleaning.py:35 | later minutes never fall in earlier windows |
| Demand.BucketIndexAtLeast | src/data-cleaning.py:35 | a minute at or after window w's start lies in window w or later |
| Demand.BucketIndexBelow | src/data-cleaning.py:35 | a minute before window w's start lies in an earlier window |
| Demand.MinuteOfDay | src/data-cleaning.py:33-35 | a minute of day n belongs to day n, and its window starts at a multiple of 360 minutes after that day's midnight |
| Demand.PeriodWithinDay | src/data-cleaning.py:33-35 | periods 1 to 48 stay on their own day, and period p's window starts (p - 1) / 12 quarter-days after midnight: periods 1-12 at 00:00, 13-24 at 06:00, 25-36 at 12:00, 37-48 at 18:00 |
| Demand.WindowOnSameDay | src/data-cleaning.py:33-38 | the window of periods 1 to 48 starts on the reading's own day |
| Demand.StampsMembers | src/data-cleaning.py:33-34 | the index holds exactly the timestamps of the rows that have a date |
| Demand.MinOf | src/data-cleaning.py:35 | the earliest timestamp is one of them and precedes all |
| Demand.MaxOf | src/data-cleaning.py:35 | the latest timestamp is one of them and follows all |
| Demand.AssignedMembers | src/data-cleaning.py:35 | a window's readings are exactly the rows whose timestamps fall in it |
| Demand.Mean | src/data-cleaning.py:35 | the mean times the count equals the sum |
| Demand.ColumnValues | src/data-cleaning.py:35 | a column has values in a set of rows exactly when some row has that column |
| Demand.Columns | src/data-cleaning.py:35 | the columns of a set of rows are exactly those with a value in some row |
| Demand.MeanReadingsSpec | src/data-cleaning.py:35 | a window's mean of a column exists exactly when some reading has that column, and it is the mean of that column's non-missing values |
| Demand.Periods | src/data-cleaning.py:35 | the present periods are non-empty exactly when some row has a period |
| Demand.MeanPeriodSpec | src/data-cleaning.py:35 | the mean period skips missing periods, exists exactly when some row has a period, and is the mean of the present periods |
| Demand.DayOfStampInRange | src/data-cleaning.py:38 | the calendar day of a representable minute is a representable date |
| Demand.Windows | src/data-cleaning.py:35 | the starts of n consecutive windows from window `first`, each 360 minutes after the previous, all inside pandas' range |
| Demand.Resample | src/data-cleaning.py:34-35 | no dated reading gives no rows; otherwise one row per window from the earliest reading's window to the latest's, contiguous and 360 minutes apart, empty windows included |
| Demand.ResampleWindow | src/data-cleaning.py:35 | every resampled row holds the statistics of its own window |
| Demand.StampListed | src/data-cleaning.py:33-34 | a dated row's timestamp is in the index |
| Demand.StampWindow | src/data-cleaning.py:35 | every timestamp's window is a row of the resampled table, at the position counted from the first window |
| Demand.ReadingInItsWindow | src/data-cleaning.py:33-35 | every dated reading is counted in the resampled row of its own window |
| Demand.ReadingWindowIndex | src/data-cleaning.py:35 | a reading's window is the output row at its window number counted from the first window, and that row starts where the reading's window starts |
| Demand.WindowMeans | src/data-cleaning.py:35 | a window's value for a column exists exactly when a reading in that window has the column, and it is the arithmetic mean of those readings |
| Demand.WindowMeanPeriod | src/data-cleaning.py:35 | a window's mean period exists exactly when the window holds a reading, and it is the mean of the readings' periods |
| Demand.DayLabelRoundTrip | src/data-cleaning.py:38 | the `SETTLEMENT_DATE` put back on a resampled row parses as the calendar day the window starts on |
| Demand.MidnightInRange | src/data-cleaning.py:33 | midnight of a representable date is a representable minute inside its year |
| Demand.WindowDayOfReading | src/data-cleaning.py:33-38 | a reading for periods 1 to 48 of day d lands in a row whose `SETTLEMENT_DATE` is d's `%d-%b-%Y` |
| Demand.DayLabelOfDay | src/data-cleaning.py:38 | a window starting on day d carries d's `%d-%b-%Y` as its date label |
| Demand.SixYearStamps | src/data-cleaning.py:41-42 | readings dated 2017 to 2022 with periods 1 to 48 have timestamps from 2017-01-01 00:00 up to, not including, 2023-01-01 00:00 |
| Demand.LongDayStamp | src/data-cleaning.py:33 | periods up to 50 of any day in 2017 to 2022 other than 2022-12-31 still have timestamps before 2023-01-01 00:00, so clock-change days keep the data inside the six years |
| Demand.FirstWindowIs | src/data-cleaning.py:35 | the resampled table starts at the window of the earliest reading |
| Demand.LastWindowIs | src/data-cleaning.py:35 | the resampled table ends at the window of the latest reading |
| Demand.SixYearWindowCount | src/data-cleaning.py:41-42 | when every timestamp lies from 2017-01-01 00:00 up to 2023-01-01 00:00, with a reading in the first window of 2017-01-01 and one in the last window of 2022-12-31, the table has 2191 * 4 = 8764 rows |
| Demand.RowOrigin | src/data-cleaning.py:29 | every row of the concatenation is row j of some table i, at position j after the earlier tables' rows |
| Demand.CombinedRow | src/data-cleaning.py:22-31 | row j of file f becomes one row of the combined table, with its period and readings kept and its date parsed as `%d-%b-%Y`, or for 2022 as `%Y-%m-%d` |
| Demand.StampFromFile | src/data-cleaning.py:29-33 | every timestamp of the combined table is the date plus period offset of some file row |
| Demand.ConsolidateFails | src/data-cleaning.py:31-33 | the consolidation fails with `OffsetOverflow` exactly when some file row has a period whose 30-minute offset does not fit a 64-bit nanosecond `Timedelta`, whatever its date; it fails at all exactly when that happens or some file row has a date and a period whose timestamp pandas cannot represent |
| Demand.OffsetsOfFiles | src/data-cleaning.py:33 | every offset of the concatenated table fits exactly when no row of any file has a period whose offset overflows |
| Demand.StampsOfFiles | src/data-cleaning.py:31-33 | every timestamp of the concatenated table is representable exactly when no dated row of any file with a period overflows |
| Demand.PeriodFromFile | src/data-cleaning.py:29 | every period of the concatenated table is the period of some file row |
| Demand.LongOffsetFails | src/data-cleaning.py:33 | period 5,124,097 on 01-JAN-1678 gives a representable timestamp, yet the offset alone overflows and the run aborts |
| Demand.ConsolidatedReading | src/data-cleaning.py:14-35 | on success, every file row with a date and a period is counted in the output row of its own 6-hour window |
| Demand.ConsolidateSixYears | src/data-cleaning.py:14-42 | six files whose periods all have representable offsets and whose readings lie in 2017 to 2022, starting in the first window of 2017-01-01 and ending in the last of 2022-12-31, consolidate into 8764 rows without failing |
| Temperature.Cutoff | src/data-cleaning.py:52 | the cut-off is 2023-01-01 00:00 |
| Temperature.KeepBeforeCutoff | src/data-cleaning.py:52 | a record is kept exactly when its time is present and before 2023-01-01 00:00 |
| Temperature.KeepAppend | src/data-cleaning.py:52 | filtering works record by record, so file order is preserved |
| Temperature.KeepOne | src/data-cleaning.py:52 | a single record survives exactly when it is before the cut-off |
| Temperature.KeepIdempotent | src/data-cleaning.py:52 | filtering twice is filtering once |
| Temperature.KeepAllBefore | src/data-cleaning.py:52 | a file entirely before 2023 is unchanged |
| Temperature.KeepByYear | src/data-cleaning.py:51-52 | an observation dated 2022 or earlier is kept; one dated 2023 or later is dropped |
| Combine.Matches | src/data-cleaning.py:59 | the matches of a timestamp are exactly the temperature records observed at that minute |
| Combine.MergeOne | src/data-cleaning.py:59 | each demand row yields at least one merged row, and all of them carry that demand row |
| Combine.LeftMerge | src/data-cleaning.py:59 | a left merge never has fewer rows than the demand table |
| Combine.LeftMergeAppend | src/data-cleaning.py:59 | merging works demand row by demand row, in demand order |
| Combine.MergedRowsMatch | src/data-cleaning.py:59 | every merged row carries a demand row and either a record observed at exactly its timestamp or, when no record matched, missing temperature columns |
| Combine.DemandRowKept | src/data-cleaning.py:59 | every demand row appears in the merged table |
| Combine.Lookup | src/data-cleaning.py:59 | the lookup finds a record observed at the minute, or reports that there is none |
| Combine.UniqueMatches | src/data-cleaning.py:59 | with unique observation times, a timestamp matches at most one record |
| Combine.UniqueMerge | src/data-cleaning.py:59 | with unique observation times, the merge has the demand table's length and order, and each row is paired with its own record or with missing values |
| Combine.PrevValid | src/data-cleaning.py:61 | finds the closest earlier position with a value, or reports that none exists |
| Combine.NextValid | src/data-cleaning.py:61 | finds the closest later position with a value, or reports that none exists |
| Combine.Interpolate | src/data-cleaning.py:61 | interpolation keeps the length and leaves every present temperature unchanged |
| Combine.InteriorGapFilled | src/data-cleaning.py:61 | a gap with values on both sides gets the value of a nearest valued row |
| Combine.EdgeGapStays | src/data-cleaning.py:61 | a gap with no value on one side stays missing |
| Combine.InterpolateIdempotent | src/data-cleaning.py:61 | a second interpolation changes nothing |
| Combine.GapAfterFill | src/data-cleaning.py:61 | a gap one interpolation pass leaves missing is still missing after a second pass |
| Combine.Rename | src/data-cleaning.py:64 | renaming keeps the length and every other column in place; afterwards the columns are the old ones without the renamed one, plus the new name if the old one was there; an absent column changes nothing, and the old name is gone |
| Combine.CleanColumnNames | src/data-cleaning.py:63-64 | the output columns are `SETTLEMENT_DATE, observation_dtg_utc, temp_c, TSD`, in that order |
| Combine.CombineRow | src/data-cleaning.py:58-64 | cleaned row i is merged row i: its demand row's date label, its window start as `observation_dtg_utc`, its mean TSD, and the merged temperature when there was one |
| Combine.CombineUnique | src/data-cleaning.py:59-64 | with unique observation times, cleaned row i is demand row i: its date label, its window start as `observation_dtg_utc`, its mean TSD, and the recorded temperature at that minute when there is one |
| Combine.CombineFillsGap | src/data-cleaning.py:59-64 | a cleaned row with no temperature of its own, but temperatures above and below it, takes the temperature of a nearest row |
| Pagination.PageCount | src/dash-app.py:41 | the page count is zero exactly for an empty table, and otherwise is the ceiling of n / 100 |
| Pagination.Head | src/dash-app.py:30 | the initial data is a prefix of the table, of length min(n, 100) |
| Pagination.PageContents | src/dash-app.py:134-137 | page p >= 1 is exactly rows (p - 1) * 100 up to min(p * 100, n), and it is empty past the end |
| Pagination.DefaultPage | src/dash-app.py:134-137 | a missing page is page 1, which is the initial table data |
| Pagination.PageZero | src/dash-app.py:137 | page 0 is empty |
| Pagination.PagesPrefix | src/dash-app.py:137 | pages 1 to k together are the first min(100 * k, n) rows |
| Pagination.PagesCoverTable | src/dash-app.py:41 | pages 1 to the page count together reproduce the whole table |
| Pagination.PageOfRow | src/dash-app.py:137 | row i is on page i / 100 + 1, at position i % 100, and on no other page |
| Pagination.LastPage | src/dash-app.py:41 | for a non-empty table the last page has rows and the page after it is empty |
| Pagination.PageSizeBound | src/dash-app.py:137 | no page holds more than 100 rows |
| Chart.StrLessIrreflexive | src/dash-app.py:157 | no string sorts before itself |
| Chart.StrLessTransitive | src/dash-app.py:157 | string order is transitive |
| Chart.StrLessTotal | src/dash-app.py:157 | of two distinct strings, one sorts first |
| Chart.KeyLessIrreflexive | src/dash-app.py:157 | no group key sorts before itself |
| Chart.KeyLessTransitive | src/dash-app.py:157 | group-key order is transitive |
| Chart.KeyLessTotal | src/dash-app.py:157 | of two distinct present group keys, one sorts first; a column mixing numbers and strings is ordered numbers first, then strings by code point, as pandas' mixed-type sort does |
| Chart.InsertSpec | src/dash-app.py:157 | adding a key to sorted distinct keys keeps them sorted and distinct and adds exactly that key |
| Chart.GroupKeysSpec | src/dash-app.py:157 | there is one group per distinct present value of the group column, in increasing order |
| Chart.SumOverKeysCons | src/dash-app.py:157 | over distinct keys, one more row adds its value to exactly the group it belongs to |
| Chart.SumOverCoveringKeys | src/dash-app.py:157 | over distinct keys that cover every grouped row, group sums add up to the grouped total |
| Chart.GroupSumsConserveTotal | src/dash-app.py:156-157 | summed over all groups, a series equals its total over the page rows that have a group value |
| Chart.JoinAppend | src/dash-app.py:171 | `", ".join` puts the separator only between names |
| Chart.JoinLength | src/dash-app.py:171 | a join is as long as the names plus one separator between each pair |
| Chart.FirstMissing | src/dash-app.py:156 | finds a selected column that the table lacks, or confirms that all are present |
| Chart.UpdateChart | src/dash-app.py:147-173 | the chart fails with `KeyError` exactly when the group or a series column is not in the table; otherwise it has one trace per selected series |
| Chart.ChartTraces | src/dash-app.py:156-166 | trace i has series i's name, is a line exactly when the chart type is `"line"`, has one point per distinct group value of the page in increasing order, and its y values are the group sums, which add up to the series' grouped total |
| Chart.ChartPageIsTablePage | src/dash-app.py:133-157 | each trace's points are the distinct group values of the page `update_table` shows for the same active page (page 1, the initial `head`, when none is active); for page p >= 1 these are the values in rows (p - 1) * 100 up to min(p * 100, n), and a page past the end plots nothing |
| Chart.PageGroupKeys | src/dash-app.py:150-157 | the groups of page p are the distinct present group values of the rows the page covers |
| Chart.ChartTitles | src/dash-app.py:171-173 | the title is the y-axis title, then " by ", then the x-axis title; the x-axis title is the group column; the y-axis title is the series names joined with ", " |

## Left out

- File input and output are not modelled: CSV reading and writing, the `%.2f` formatting, argparse and the entry points. Tables are parameters and results.
- The Dash layout, styling, server and callback wiring are not modelled. Neither are plotly's figure options beyond trace kind, name, data and titles (markers, line width, legend, margins, colours, sizes).
- Line 50's free-form `pd.to_datetime` of the temperature times is not modelled. Observation times enter already converted to minutes, and an unparseable time, which pandas would raise on, has no counterpart. Seconds and time zones are not modelled.
- Floating point is not modelled: sums and means are exact `real`s, and NaN is `None`.
- Pandas timestamps are limited to whole years 1678 to 2261. The partial years 1677 and 2262 that pandas can also hold are treated as out of range.
- Day strings with a leading space and other strptime whitespace rules are not modelled. Non-English locales for `%b` are not modelled. The cells `now` and `today`, which pandas reads as the current clock time before trying the format, are not modelled: the model has no clock, so they become missing values. Non-ASCII decimal digits, which strptime's `%d` and `%Y` also accept, are not modelled either: only `0` to `9` are digits here.
- Demand.Resample: rows whose date did not parse, or whose period is missing, take no part in any window. pandas' handling of a NaT index entry is library behaviour, and this model only claims its own choice.
- Combine.InteriorGapFilled: the winner of a tie between two equally distant neighbours is left open, as it is library behaviour. The model takes the earlier one.
- Combine.EdgeGapStays: states what this model does with gaps before the first or after the last value. pandas' own handling of edge gaps is library behaviour and is not claimed.
- Chart.ChartTraces: a text cell in a series column counts as 0. A group column that is also a selected series, or a series selected twice, is not modelled.
- Chart.UpdateChart: a cleared group dropdown (`None`) and a cleared series selection are not modelled. The group is a column name, and the series are a list.

=== FILE: calendar.dfy ===
/** The proleptic Gregorian calendar that pandas timestamps live in.
    A day number counts days from 0001-01-01 (day 0); a timestamp counts
    minutes from 0001-01-01 00:00. */
module Calendar {

  datatype Date = Date(year: int, month: int, day: int)

  /** pandas timestamps are 64-bit nanosecond counts around 1970; the whole
      years they can hold are 1678 to 2261. */
  const MinYear: int := 1678
  const MaxYear: int := 2261

  predicate IsLeapYear(y: int) {
    y % 4 == 0 && (y % 100 != 0 || y % 400 == 0)
  }

  function YearLength(y: int): int {
    if IsLeapYear(y) then 366 else 365
  }

  function DaysInMonth(y: int, m: int): int
    requires 1 <= m <= 12
  {
    if m == 2 then (if IsLeapYear(y) then 29 else 28)
    else if m == 4 || m == 6 || m == 9 || m == 11 then 30
    else 31
  }

  predicate WellFormed(d: Date) {
    1 <= d.month <= 12 && 1 <= d.day <= DaysInMonth(d.year, d.month)
  }

  /** A well-formed date whose midnight a pandas timestamp can represent. */
  predicate InRange(d: Date) {
    WellFormed(d) && MinYear <= d.year <= MaxYear
  }

  /** Days of year `y` before the first of month `m`; month 13 stands for
      the first day of the next year. */
  function DaysBeforeMonth(y: int, m: int): int
    requires 1 <= m <= 13
  {
    [0, 31, 59, 90, 120, 151, 181, 212, 243, 273, 304, 334, 365][m - 1]
    + (if m > 2 && IsLeapYear(y) then 1 else 0)
  }

  /** Leap years in (0, x] for x >= 0, minus those in (x, 0] for x < 0. */
  function LeapYearsUpTo(x: int): int {
    x / 4 - x / 100 + x / 400
  }

  /** Days from 0001-01-01 to the first of January of year `y`. */
  function DaysBeforeYear(y: int): int {
    365 * (y - 1) + LeapYearsUpTo(y - 1)
  }

  function DayNumber(d: Date): int
    requires WellFormed(d)
  {
    DaysBeforeYear(d.year) + DaysBeforeMonth(d.year, d.month) + d.day - 1
  }

  /** Minutes from 0001-01-01 00:00 to midnight of `d`. */
  function Midnight(d: Date): int
    requires WellFormed(d)
  {
    DayNumber(d) * 1440
  }

  /** Integer division by the leap-cycle lengths 4, 100 and 400 steps up by
      one exactly at the multiples. */
  lemma DivStep(x: int)
    ensures (x + 1) / 4 - x / 4 == if (x + 1) % 4 == 0 then 1 else 0
    ensures (x + 1) / 100 - x / 100 == if (x + 1) % 100 == 0 then 1 else 0
    ensures (x + 1) / 400 - x / 400 == if (x + 1) % 400 == 0 then 1 else 0
  {
  }

  /** The closed form for the start of a year agrees with the year lengths:
      consecutive years start 365 or 366 days apart, by the leap-year rule. */
  lemma {:induction false} YearStep(y: int)
    ensures DaysBeforeYear(y + 1) - DaysBeforeYear(y) == YearLength(y)
  {
    DivStep(y - 1);
    assert LeapYearsUpTo(y) - LeapYearsUpTo(y - 1) ==
      (y / 4 - (y - 1) / 4) - (y / 100 - (y - 1) / 100) + (y / 400 - (y - 1) / 400);
    assert LeapYearsUpTo(y) - LeapYearsUpTo(y - 1) == if IsLeapYear(y) then 1 else 0;
  }

  /** Sum of the lengths of years a, a+1, ..., b-1. */
  function DaysInYears(a: int, b: int): int
    requires a <= b
    decreases b - a
  {
    if a == b then 0 else YearLength(a) + DaysInYears(a + 1, b)
  }

  /** The days between two New Year's days are the lengths of the years
      between them. */
  lemma {:induction false} YearSpan(a: int, b: int)
    requires a <= b
    ensures DaysBeforeYear(b) - DaysBeforeYear(a) == DaysInYears(a, b)
    decreases b - a
  {
    if a < b {
      YearStep(a);
      YearSpan(a + 1, b);
    }
  }

  lemma {:induction false} DaysBeforeYearMonotone(a: int, b: int)
    requires a <= b
    ensures DaysBeforeYear(a) + 365 * (b - a) <= DaysBeforeYear(b)
    decreases b - a
  {
    if a < b {
      YearStep(a);
      DaysBeforeYearMonotone(a + 1, b);
    }
  }

  lemma MonthStep(y: int, m: int)
    requires 1 <= m <= 12
    ensures DaysBeforeMonth(y, m + 1) == DaysBeforeMonth(y, m) + DaysInMonth(y, m)
  {
  }

  lemma DaysBeforeMonthMonotone(y: int, a: int, b: int)
    requires 1 <= a <= b <= 13
    ensures DaysBeforeMonth(y, a) <= DaysBeforeMonth(y, b)
  {
  }

  /** A well-formed date's day number lies inside its own year. */
  lemma WithinYear(d: Date)
    requires WellFormed(d)
    ensures DaysBeforeYear(d.year) <= DayNumber(d) < DaysBeforeYear(d.year + 1)
  {
    MonthStep(d.year, d.month);
    DaysBeforeMonthMonotone(d.year, d.month + 1, 13);
    YearStep(d.year);
  }

  /** The year whose days contain day number `n`, searched from year `y`. */
  function YearContaining(n: int, y: int): (r: int)
    ensures DaysBeforeYear(r) <= n < DaysBeforeYear(r + 1)
    decreases if n < DaysBeforeYear(y) then 1 else 0,
              if n < DaysBeforeYear(y) then DaysBeforeYear(y) - n else n - DaysBeforeYear(y)
  {
    YearStep(y);
    YearStep(y - 1);
    if n < DaysBeforeYear(y) then YearContaining(n, y - 1)
    else if DaysBeforeYear(y + 1) <= n then YearContaining(n, y + 1)
    else y
  }

  /** The month of year `y` holding day-of-year `k` (0-based), searched from `m`. */
  function MonthContaining(y: int, k: int, m: int): (r: int)
    requires 0 <= k < YearLength(y)
    requires 1 <= m <= 12 && DaysBeforeMonth(y, m) <= k
    ensures m <= r <= 12
    ensures DaysBeforeMonth(y, r) <= k < DaysBeforeMonth(y, r + 1)
    decreases 12 - m
  {
    if k < DaysBeforeMonth(y, m + 1) then m else MonthContaining(y, k, m + 1)
  }

  /** The calendar date of day number `n`: the inverse of `DayNumber`. */
  function DateOfDay(n: int): (d: Date)
    ensures WellFormed(d) && DayNumber(d) == n
  {
    var y := YearContaining(n, 1970);
    YearStep(y);
    var k := n - DaysBeforeYear(y);
    var m := MonthContaining(y, k, 1);
    MonthStep(y, m);
    Date(y, m, k - DaysBeforeMonth(y, m) + 1)
  }

  /** Two well-formed dates with the same day number lie in the same year. */
  lemma SameDaySameYear(d: Date, e: Date)
    requires WellFormed(d) && WellFormed(e) && DayNumber(d) == DayNumber(e)
    ensures d.year == e.year
  {
    WithinYear(d);
    WithinYear(e);
    if e.year < d.year {
      DaysBeforeYearMonotone(e.year + 1, d.year);
    } else if d.year < e.year {
      DaysBeforeYearMonotone(d.year + 1, e.year);
    }
  }

  /** Within one year, the day number fixes the month and the day. */
  lemma SameDayWithinYear(d: Date, e: Date)
    requires WellFormed(d) && WellFormed(e) && d.year == e.year && DayNumber(d) == DayNumber(e)
    ensures d == e
  {
    MonthStep(d.year, d.month);
    MonthStep(d.year, e.month);
    if e.month < d.month {
      DaysBeforeMonthMonotone(d.year, e.month + 1, d.month);
    } else if d.month < e.month {
      DaysBeforeMonthMonotone(d.year, d.month + 1, e.month);
    }
  }

  /** Distinct well-formed dates have distinct day numbers, so `DateOfDay`
      recovers every date from its day number. */
  lemma DateOfDayNumber(d: Date)
    requires WellFormed(d)
    ensures DateOfDay(DayNumber(d)) == d
  {
    var e := DateOfDay(DayNumber(d));
    SameDaySameYear(d, e);
    SameDayWithinYear(d, e);
  }

  /** Day numbers follow calendar order: the first of January of a year
      comes exactly one year length after that of the year before. */
  lemma NewYearAfterNewYear(y: int)
    ensures DayNumber(Date(y + 1, 1, 1)) == DayNumber(Date(y, 1, 1)) + YearLength(y)
  {
    YearStep(y);
  }

  /** 2017, 2018, 2019, 2021 and 2022 are common years and 2020 is a leap
      year, so the six years 2017-2022 hold 365 * 5 + 366 = 2191 days. */
  lemma SixYearsOfDays()
    ensures DayNumber(Date(2023, 1, 1)) - DayNumber(Date(2017, 1, 1)) == 365 * 5 + 366
  {
    YearSpan(2017, 2023);
  }
}

=== FILE: chart.dfy ===
/** The chart callback of the dashboard (`DashApp.update_chart`): the
    active page grouped by one column, the chosen series summed per group,
    one trace per series and the titles built from the column names. */
module Chart {
  import opened Wrappers
  import opened Pagination

  // ---------------------------------------------------------------------
  // Cells, rows and the order of group keys

  /** One cell of the CSV table as pandas reads it. */
  datatype Cell = Num(x: real) | Text(s: string) | Missing

  /** A row by column name; a column absent from the map is missing there. */
  type Row = map<string, Cell>

  datatype Frame = Frame(columns: seq<string>, rows: seq<Row>)

  function Get(row: Row, c: string): Cell {
    if c in row then row[c] else Missing
  }

  /** Lexicographic order on strings by code point, as Python compares them. */
  predicate StrLess(a: string, b: string) {
    if |a| == 0 then |b| > 0
    else if |b| == 0 then false
    else a[0] < b[0] || (a[0] == b[0] && StrLess(a[1..], b[1..]))
  }

  lemma {:induction false} StrLessIrreflexive(a: string)
    ensures !StrLess(a, a)
  {
    if |a| > 0 {
      StrLessIrreflexive(a[1..]);
    }
  }

  lemma {:induction false} StrLessTransitive(a: string, b: string, c: string)
    requires StrLess(a, b) && StrLess(b, c)
    ensures StrLess(a, c)
  {
    if |a| > 0 && a[0] == b[0] && b[0] == c[0] {
      StrLessTransitive(a[1..], b[1..], c[1..]);
    }
  }

  lemma {:induction false} StrLessTotal(a: string, b: string)
    requires a != b
    ensures StrLess(a, b) || StrLess(b, a)
  {
    if |a| > 0 && |b| > 0 && a[0] == b[0] {
      assert a == [a[0]] + a[1..] && b == [b[0]] + b[1..];
      StrLessTotal(a[1..], b[1..]);
    }
  }

  /** The order of group keys: numbers by value, strings lexicographically.
      In a column mixing the two, numbers come first, then strings, as
      pandas' mixed-type sort orders them. */
  predicate KeyLess(a: Cell, b: Cell) {
    match (a, b)
    case (Num(x), Num(y)) => x < y
    case (Text(s), Text(t)) => StrLess(s, t)
    case (Num(_), Text(_)) => true
    case _ => false
  }

  lemma KeyLessIrreflexive(a: Cell)
    ensures !KeyLess(a, a)
  {
    if a.Text? {
      StrLessIrreflexive(a.s);
    }
  }

  lemma KeyLessTransitive(a: Cell, b: Cell, c: Cell)
    requires KeyLess(a, b) && KeyLess(b, c)
    ensures KeyLess(a, c)
  {
    if a.Text? {
      StrLessTransitive(a.s, b.s, c.s);
    }
  }

  lemma KeyLessTotal(a: Cell, b: Cell)
    requires a != b && !a.Missing? && !b.Missing?
    ensures KeyLess(a, b) || KeyLess(b, a)
  {
    if a.Text? && b.Text? {
      StrLessTotal(a.s, b.s);
    }
  }

  /** Strictly increasing, hence without repeats. */
  predicate Increasing(ks: seq<Cell>) {
    forall i, j :: 0 <= i < j < |ks| ==> KeyLess(ks[i], ks[j])
  }

  /** `k` placed into the increasing `ks`, unless it is already there. */
  function Insert(k: Cell, ks: seq<Cell>): seq<Cell> {
    if |ks| == 0 then [k]
    else if k == ks[0] then ks
    else if KeyLess(k, ks[0]) then [k] + ks
    else [ks[0]] + Insert(k, ks[1..])
  }

  /** Inserting keeps the keys increasing and adds exactly `k`. */
  lemma {:induction false} InsertSpec(k: Cell, ks: seq<Cell>)
    requires Increasing(ks) && !k.Missing? && forall i :: 0 <= i < |ks| ==> !ks[i].Missing?
    ensures Increasing(Insert(k, ks))
    ensures forall c :: c in Insert(k, ks) <==> c == k || c in ks
    ensures forall i :: 0 <= i < |Insert(k, ks)| ==> !Insert(k, ks)[i].Missing?
  {
    if |ks| > 0 && k != ks[0] {
      if KeyLess(k, ks[0]) {
        forall j | 0 <= j < |ks| ensures KeyLess(k, ks[j]) {
          if j > 0 {
            KeyLessTransitive(k, ks[0], ks[j]);
          }
        }
      } else {
        KeyLessTotal(k, ks[0]);
        InsertSpec(k, ks[1..]);
        var rest := Insert(k, ks[1..]);
        forall j | 0 <= j < |rest| ensures KeyLess(ks[0], rest[j]) {
          assert rest[j] == k || rest[j] in ks[1..];
        }
        assert forall c :: c in ks <==> c == ks[0] || c in ks[1..];
      }
    }
  }

  /** The distinct non-missing values of column `g`, increasing (pandas
      drops missing keys and sorts the groups). */
  function GroupKeys(rows: seq<Row>, g: string): seq<Cell> {
    if |rows| == 0 then []
    else
      var rest := GroupKeys(rows[1..], g);
      if Get(rows[0], g).Missing? then rest else Insert(Get(rows[0], g), rest)
  }

  /** One group per distinct value of the group column, in increasing
      order. */
  lemma {:induction false} GroupKeysSpec(rows: seq<Row>, g: string)
    ensures Increasing(GroupKeys(rows, g))
    ensures forall i :: 0 <= i < |GroupKeys(rows, g)| ==> !GroupKeys(rows, g)[i].Missing?
    ensures forall c :: c in GroupKeys(rows, g) <==> !c.Missing? && exists row :: row in rows && Get(row, g) == c
  {
    if |rows| > 0 {
      GroupKeysSpec(rows[1..], g);
      if !Get(rows[0], g).Missing? {
        InsertSpec(Get(rows[0], g), GroupKeys(rows[1..], g));
      }
      assert forall row :: row in rows <==> row == rows[0] || row in rows[1..];
    }
  }

  // ---------------------------------------------------------------------
  // Sums per group

  /** A series cell's contribution to a sum: missing values add nothing. */
  function Value(c: Cell): real {
    if c.Num? then c.x else 0.0
  }

  /** The sum of series `s` over the rows whose group cell is `k`. */
  function GroupTotal(rows: seq<Row>, g: string, k: Cell, s: string): real {
    if |rows| == 0 then 0.0
    else (if Get(rows[0], g) == k then Value(Get(rows[0], s)) else 0.0) + GroupTotal(rows[1..], g, k, s)
  }

  /** The sum of series `s` over the rows that belong to some group. */
  function GroupedTotal(rows: seq<Row>, g: string, s: string): real {
    if |rows| == 0 then 0.0
    else (if Get(rows[0], g).Missing? then 0.0 else Value(Get(rows[0], s))) + GroupedTotal(rows[1..], g, s)
  }

  /** The group sums of `s` for the keys `ks`, added up. */
  function SumOverKeys(rows: seq<Row>, g: string, ks: seq<Cell>, s: string): real {
    if |ks| == 0 then 0.0 else GroupTotal(rows, g, ks[0], s) + SumOverKeys(rows, g, ks[1..], s)
  }

  /** Adding one row in front adds its value to exactly the one group among
      distinct keys that it belongs to. */
  lemma {:induction false} SumOverKeysCons(row: Row, rows: seq<Row>, g: string, ks: seq<Cell>, s: string)
    requires Increasing(ks)
    ensures SumOverKeys([row] + rows, g, ks, s) ==
      (if Get(row, g) in ks then Value(Get(row, s)) else 0.0) + SumOverKeys(rows, g, ks, s)
  {
    if |ks| > 0 {
      assert ([row] + rows)[1..] == rows;
      SumOverKeysCons(row, rows, g, ks[1..], s);
      if Get(row, g) == ks[0] {
        forall j | 1 <= j < |ks| ensures ks[j] != ks[0] {
          KeyLessIrreflexive(ks[0]);
        }
        assert Get(row, g) !in ks[1..];
      }
      assert forall c :: c in ks <==> c == ks[0] || c in ks[1..];
    }
  }

  /** Summed over distinct keys that cover every grouped row, the group sums
      add up to the grouped total. */
  lemma {:induction false} SumOverCoveringKeys(rows: seq<Row>, g: string, ks: seq<Cell>, s: string)
    requires Increasing(ks)
    requires forall i :: 0 <= i < |ks| ==> !ks[i].Missing?
    requires forall row :: row in rows && !Get(row, g).Missing? ==> Get(row, g) in ks
    ensures SumOverKeys(rows, g, ks, s) == GroupedTotal(rows, g, s)
  {
    if |rows| == 0 {
      ZeroSums(g, ks, s);
    } else {
      assert rows == [rows[0]] + rows[1..];
      SumOverKeysCons(rows[0], rows[1..], g, ks, s);
      SumOverCoveringKeys(rows[1..], g, ks, s);
      assert Get(rows[0], g).Missing? ==> Get(rows[0], g) !in ks;
    }
  }

  lemma {:induction false} ZeroSums(g: string, ks: seq<Cell>, s: string)
    ensures SumOverKeys([], g, ks, s) == 0.0
  {
    if |ks| > 0 {
      ZeroSums(g, ks[1..], s);
    }
  }

  /** Line 157: grouping conserves each series' total over the page rows
      that have a group value. */
  lemma GroupSumsConserveTotal(rows: seq<Row>, g: string, s: string)
    ensures SumOverKeys(rows, g, GroupKeys(rows, g), s) == GroupedTotal(rows, g, s)
  {
    GroupKeysSpec(rows, g);
    SumOverCoveringKeys(rows, g, GroupKeys(rows, g), s);
  }

  /** The sums of series `s` for each key, in key order. */
  function Sums(rows: seq<Row>, g: string, ks: seq<Cell>, s: string): (ys: seq<real>)
    ensures |ys| == |ks|
    ensures forall i :: 0 <= i < |ks| ==> ys[i] == GroupTotal(rows, g, ks[i], s)
  {
    seq(|ks|, i requires 0 <= i < |ks| => GroupTotal(rows, g, ks[i], s))
  }

  // ---------------------------------------------------------------------
  // Traces, titles and the figure

  datatype TraceKind = Line | Bar

  datatype Trace = Trace(kind: TraceKind, name: string, x: seq<Cell>, y: seq<real>)

  datatype Figure = Figure(traces: seq<Trace>, title: string, xTitle: string, yTitle: string)

  datatype ChartError = KeyError(column: string)

  /** `sep.join(parts)`. */
  function Join(sep: string, parts: seq<string>): string {
    if |parts| == 0 then ""
    else if |parts| == 1 then parts[0]
    else parts[0] + sep + Join(sep, parts[1..])
  }

  /** Joining works part by part: appending a part appends the separator
      and the part. */
  lemma {:induction false} JoinAppend(sep: string, parts: seq<string>, p: string)
    ensures Join(sep, parts + [p]) == if |parts| == 0 then p else Join(sep, parts) + sep + p
  {
    if |parts| > 1 {
      assert (parts + [p])[1..] == parts[1..] + [p];
      JoinAppend(sep, parts[1..], p);
    } else if |parts| == 1 {
      assert (parts + [p])[1..] == [p];
    }
  }

  /** Joined names are as long as the names and separators together. */
  lemma {:induction false} JoinLength(sep: string, parts: seq<string>)
    ensures |parts| > 0 ==> |Join(sep, parts)| == SumLengths(parts) + (|parts| - 1) * |sep|
  {
    if |parts| > 1 {
      JoinLength(sep, parts[1..]);
    }
  }

  function SumLengths(parts: seq<string>): nat {
    if |parts| == 0 then 0 else |parts[0]| + SumLengths(parts[1..])
  }

  /** The first column of `cols` that the frame does not have. */
  function FirstMissing(f: Frame, cols: seq<string>): (r: Option<string>)
    ensures r.Some? ==> r.value in cols && r.value !in f.columns
    ensures r.None? ==> forall c :: c in cols ==> c in f.columns
  {
    if |cols| == 0 then None
    else if cols[0] !in f.columns then Some(cols[0])
    else FirstMissing(f, cols[1..])
  }

  /** Lines 147-180: the page of the table, grouped by `group`, one trace per
      series (a line chart when `chartType` is `"line"`, bars otherwise),
      titled `"<series, ...> by <group>"`. Selecting a column the table does
      not have raises `KeyError`. */
  function UpdateChart(f: Frame, chartType: string, group: string, series: seq<string>, active: Option<int>): (r: Result<Figure, ChartError>)
    ensures r.Failure? <==> exists c :: c in [group] + series && c !in f.columns
    ensures r.Success? ==> |r.value.traces| == |series|
  {
    match FirstMissing(f, [group] + series)
    case Some(c) => Failure(KeyError(c))
    case None =>
      var page := Page(f.rows, active);
      var keys := GroupKeys(page, group);
      var kind := if chartType == "line" then Line else Bar;
      var names := Join(", ", series);
      Success(Figure(
        seq(|series|, i requires 0 <= i < |series| => Trace(kind, series[i], keys, Sums(page, group, keys, series[i]))),
        names + " by " + group, group, names))
  }

  /** Trace `i` is series `i` of the selection: its name, the chart type's
      kind, one point per distinct group value of the active page in
      increasing order, and at each point the sum of the series over that
      group's rows, which add up to the series' grouped total. */
  lemma ChartTraces(f: Frame, chartType: string, group: string, series: seq<string>, active: Option<int>, i: int)
    requires UpdateChart(f, chartType, group, series, active).Success?
    requires 0 <= i < |series|
    ensures var t := UpdateChart(f, chartType, group, series, active).value.traces[i];
      var page := Page(f.rows, active);
      t.name == series[i] &&
      (t.kind == Line <==> chartType == "line") &&
      Increasing(t.x) && |t.y| == |t.x| &&
      (forall c :: c in t.x <==> !c.Missing? && exists row :: row in page && Get(row, group) == c) &&
      (forall j :: 0 <= j < |t.x| ==> t.y[j] == GroupTotal(page, group, t.x[j], series[i])) &&
      SumOverKeys(page, group, t.x, series[i]) == GroupedTotal(page, group, series[i])
  {
    var page := Page(f.rows, active);
    GroupKeysSpec(page, group);
    GroupSumsConserveTotal(page, group, series[i]);
  }

  /** The chart plots the rows the table shows: for the same active page,
      the points of every trace are the distinct group values of the
      table's page (page 1, the table's initial `head`, when none is
      active), which for a page `p >= 1` holding rows are the values in rows
      `(p - 1) * 100` up to `min(p * 100, n)`; a page past the end plots
      nothing. */
  lemma ChartPageIsTablePage(f: Frame, chartType: string, group: string, series: seq<string>, active: Option<int>, i: int)
    requires UpdateChart(f, chartType, group, series, active).Success?
    requires 0 <= i < |series|
    ensures var t := UpdateChart(f, chartType, group, series, active).value.traces[i];
      var p := active.GetOr(1);
      t.x == GroupKeys(Page(f.rows, Some(p)), group) &&
      (active.None? ==> t.x == GroupKeys(Head(f.rows), group)) &&
      (p >= 1 && (p - 1) * PageSize >= |f.rows| ==> t.x == []) &&
      (p >= 1 ==> forall c :: c in t.x <==>
        !c.Missing? && exists k :: (p - 1) * PageSize <= k < Min(p * PageSize, |f.rows|) && Get(f.rows[k], group) == c)
  {
    var t := UpdateChart(f, chartType, group, series, active).value.traces[i];
    assert t.x == GroupKeys(Page(f.rows, active), group);
    DefaultPage(f.rows);
    var p := active.GetOr(1);
    if p >= 1 {
      PageGroupKeys(f.rows, p, group);
    }
  }

  /** The distinct group values of page `p` are those of the rows the page
      covers. */
  lemma PageGroupKeys(rows: seq<Row>, p: int, g: string)
    requires p >= 1
    ensures (p - 1) * PageSize >= |rows| ==> GroupKeys(Page(rows, Some(p)), g) == []
    ensures forall c :: c in GroupKeys(Page(rows, Some(p)), g) <==>
      !c.Missing? && exists k :: (p - 1) * PageSize <= k < Min(p * PageSize, |rows|) && Get(rows[k], g) == c
  {
    var page := Page(rows, Some(p));
    GroupKeysSpec(page, g);
    PageContents(rows, p);
    var lo, hi := (p - 1) * PageSize, Min(p * PageSize, |rows|);
    if lo < |rows| {
      forall c
        ensures c in GroupKeys(page, g) <==> !c.Missing? && exists k :: lo <= k < hi && Get(rows[k], g) == c
      {
        SliceGroupValue(rows, lo, hi, g, c);
      }
    }
  }

  /** A group value is met in a slice exactly when one of the rows it covers
      has it. */
  lemma SliceGroupValue(rows: seq<Row>, lo: int, hi: int, g: string, c: Cell)
    requires 0 <= lo <= hi <= |rows|
    ensures (exists row :: row in rows[lo..hi] && Get(row, g) == c) <==>
      exists k :: lo <= k < hi && Get(rows[k], g) == c
  {
    var part := rows[lo..hi];
    if exists row :: row in part && Get(row, g) == c {
      var row :| row in part && Get(row, g) == c;
      var m :| 0 <= m < |part| && part[m] == row;
      assert rows[lo + m] == row;
    }
    if exists k :: lo <= k < hi && Get(rows[k], g) == c {
      var k :| lo <= k < hi && Get(rows[k], g) == c;
      assert part[k - lo] == rows[k];
    }
  }

  /** The title is the y-axis title, " by ", then the x-axis title, and the
      y-axis title joins the series names with ", ". */
  lemma ChartTitles(f: Frame, chartType: string, group: string, series: seq<string>, active: Option<int>)
    requires UpdateChart(f, chartType, group, series, active).Success?
    ensures var fig := UpdateChart(f, chartType, group, series, active).value;
      fig.title == fig.yTitle + " by " + fig.xTitle &&
      fig.xTitle == group &&
      fig.yTitle == Join(", ", series) &&
      (|series| == 1 ==> fig.yTitle == series[0])
  {
  }
}

=== FILE: combine.dfy ===
/** The join of the 6-hour demand table with the temperature table, the
    gap filling of the temperature column and the projection to the four
    cleaned columns (`DataProcessor.combining_demand_temperature`). */
module Combine {
  import opened Wrappers
  import opened Demand
  import opened Temperature

  // ---------------------------------------------------------------------
  // Left merge on timestamp == observation time

  /** One row of the merged table: the demand row and the temperature
      columns of its matching record, both missing when nothing matched. */
  datatype Merged = Merged(bucket: Bucket, observedAt: Option<int>, tempC: Option<real>)

  /** The temperature records observed at minute `t`, in file order. */
  function Matches(temps: seq<Observation>, t: int): (r: seq<Observation>)
    ensures |r| <= |temps|
    ensures forall o :: o in r <==> o in temps && o.observedAt == Some(t)
  {
    if |temps| == 0 then []
    else
      var rest := Matches(temps[1..], t);
      assert forall o :: o in temps <==> o == temps[0] || o in temps[1..];
      if temps[0].observedAt == Some(t) then [temps[0]] + rest else rest
  }

  /** The merged rows one demand row produces: one per matching record, or
      a single row with missing temperature columns. */
  function MergeOne(b: Bucket, temps: seq<Observation>): (r: seq<Merged>)
    ensures |r| >= 1
    ensures forall k :: 0 <= k < |r| ==> r[k].bucket == b
  {
    var ms := Matches(temps, b.timestamp);
    if |ms| == 0 then [Merged(b, None, None)]
    else seq(|ms|, k requires 0 <= k < |ms| => Merged(b, ms[k].observedAt, ms[k].tempC))
  }

  /** Line 59, `pd.merge(how='left')`: the demand rows in order, each
      followed through by its matches in the temperature table. */
  function LeftMerge(demand: seq<Bucket>, temps: seq<Observation>): (r: seq<Merged>)
    ensures |r| >= |demand|
  {
    if |demand| == 0 then [] else MergeOne(demand[0], temps) + LeftMerge(demand[1..], temps)
  }

  /** Merging works demand row by demand row. */
  lemma {:induction false} LeftMergeAppend(a: seq<Bucket>, b: seq<Bucket>, temps: seq<Observation>)
    ensures LeftMerge(a + b, temps) == LeftMerge(a, temps) + LeftMerge(b, temps)
  {
    if |a| > 0 {
      assert (a + b)[1..] == a[1..] + b;
      LeftMergeAppend(a[1..], b, temps);
    } else {
      assert a + b == b;
    }
  }

  /** Every merged row carries a demand row; its temperature columns come
      from a record observed at exactly that row's timestamp, or are both
      missing and no record matched. */
  lemma {:induction false} MergedRowsMatch(demand: seq<Bucket>, temps: seq<Observation>)
    ensures forall m :: m in LeftMerge(demand, temps) ==>
      m.bucket in demand &&
      (m.observedAt.Some? ==> m.observedAt == Some(m.bucket.timestamp) && Observation(m.observedAt, m.tempC) in temps) &&
      (m.observedAt.None? ==> m.tempC.None? && Matches(temps, m.bucket.timestamp) == [])
  {
    if |demand| > 0 {
      MergedRowsMatch(demand[1..], temps);
      var b := demand[0];
      var ms := Matches(temps, b.timestamp);
      forall m | m in MergeOne(b, temps)
        ensures m.bucket == b
        ensures m.observedAt.Some? ==> m.observedAt == Some(b.timestamp) && Observation(m.observedAt, m.tempC) in temps
        ensures m.observedAt.None? ==> m.tempC.None? && ms == []
      {
        if |ms| > 0 {
          var k :| 0 <= k < |ms| && MergeOne(b, temps)[k] == m;
          assert ms[k] in ms;
          assert Observation(m.observedAt, m.tempC) == ms[k];
        }
      }
      assert forall x :: x in demand[1..] ==> x in demand;
    }
  }

  /** Every demand row appears in the merged table. */
  lemma {:induction false} DemandRowKept(demand: seq<Bucket>, temps: seq<Observation>, i: int)
    requires 0 <= i < |demand|
    ensures exists j :: 0 <= j < |LeftMerge(demand, temps)| && LeftMerge(demand, temps)[j].bucket == demand[i]
  {
    if i == 0 {
      assert LeftMerge(demand, temps)[0] == MergeOne(demand[0], temps)[0];
    } else {
      DemandRowKept(demand[1..], temps, i - 1);
      var j :| 0 <= j < |LeftMerge(demand[1..], temps)| && LeftMerge(demand[1..], temps)[j].bucket == demand[i];
      var n := |MergeOne(demand[0], temps)|;
      assert LeftMerge(demand, temps)[n + j] == LeftMerge(demand[1..], temps)[j];
    }
  }

  /** No two temperature records share an observation time. */
  predicate UniqueTimes(temps: seq<Observation>) {
    forall j, k ::
      0 <= j < |temps| && 0 <= k < |temps| && temps[j].observedAt.Some? && temps[j].observedAt == temps[k].observedAt
      ==> j == k
  }

  /** The first record observed at minute `t`, if any. */
  function Lookup(temps: seq<Observation>, t: int): (r: Option<Observation>)
    ensures r.Some? ==> r.value in temps && r.value.observedAt == Some(t)
    ensures r.None? ==> forall k :: 0 <= k < |temps| ==> temps[k].observedAt != Some(t)
  {
    if |temps| == 0 then None
    else if temps[0].observedAt == Some(t) then Some(temps[0])
    else Lookup(temps[1..], t)
  }

  lemma {:induction false} UniqueMatches(temps: seq<Observation>, t: int)
    requires UniqueTimes(temps)
    ensures Matches(temps, t) == if Lookup(temps, t).Some? then [Lookup(temps, t).value] else []
  {
    if |temps| > 0 {
      assert UniqueTimes(temps[1..]) by {
        forall j, k | 0 <= j < |temps[1..]| && 0 <= k < |temps[1..]| && temps[1..][j].observedAt.Some? &&
          temps[1..][j].observedAt == temps[1..][k].observedAt
          ensures j == k
        {
          assert temps[1..][j] == temps[j + 1] && temps[1..][k] == temps[k + 1];
        }
      }
      UniqueMatches(temps[1..], t);
      if temps[0].observedAt == Some(t) {
        forall k | 0 <= k < |temps[1..]|
          ensures temps[1..][k].observedAt != Some(t)
        {
          assert temps[1..][k] == temps[k + 1];
        }
      }
    }
  }

  /** The merged row of a demand row whose timestamp has at most one record. */
  function MergedRow(b: Bucket, temps: seq<Observation>): Merged {
    match Lookup(temps, b.timestamp)
    case Some(o) => Merged(b, o.observedAt, o.tempC)
    case None => Merged(b, None, None)
  }

  /** With unique observation times the merge keeps the demand table's
      length and order, pairing each row with its own record. */
  lemma {:induction false} UniqueMerge(demand: seq<Bucket>, temps: seq<Observation>)
    requires UniqueTimes(temps)
    ensures |LeftMerge(demand, temps)| == |demand|
    ensures forall i :: 0 <= i < |demand| ==> LeftMerge(demand, temps)[i] == MergedRow(demand[i], temps)
  {
    if |demand| > 0 {
      UniqueMerge(demand[1..], temps);
      UniqueMatches(temps, demand[0].timestamp);
      assert MergeOne(demand[0], temps) == [MergedRow(demand[0], temps)];
      assert forall i :: 1 <= i < |demand| ==> demand[i] == demand[1..][i - 1];
    }
  }

  // ---------------------------------------------------------------------
  // Nearest-neighbour interpolation by row position

  /** The nearest position before `i` holding a value. */
  function PrevValid(xs: seq<Option<real>>, i: int): (r: Option<nat>)
    requires 0 <= i <= |xs|
    ensures r.Some? ==> r.value < i && xs[r.value].Some? && forall j :: r.value < j < i ==> xs[j].None?
    ensures r.None? ==> forall j :: 0 <= j < i ==> xs[j].None?
  {
    if i == 0 then None
    else if xs[i - 1].Some? then Some(i - 1)
    else PrevValid(xs, i - 1)
  }

  /** The nearest position after `i` holding a value. */
  function NextValid(xs: seq<Option<real>>, i: int): (r: Option<nat>)
    requires -1 <= i < |xs|
    ensures r.Some? ==> i < r.value < |xs| && xs[r.value].Some? && forall j :: i < j < r.value ==> xs[j].None?
    ensures r.None? ==> forall j :: i < j < |xs| ==> xs[j].None?
    decreases |xs| - i
  {
    if i + 1 == |xs| then None
    else if xs[i + 1].Some? then Some(i + 1)
    else NextValid(xs, i + 1)
  }

  /** The filled value at position `i`: its own value, else the value of
      the closer valued neighbour (the earlier one on a tie), else missing
      when one side has no value at all. */
  function FillAt(xs: seq<Option<real>>, i: int): Option<real>
    requires 0 <= i < |xs|
  {
    if xs[i].Some? then xs[i]
    else
      match (PrevValid(xs, i), NextValid(xs, i))
      case (Some(p), Some(n)) => if i - p <= n - i then xs[p] else xs[n]
      case _ => None
  }

  /** Line 61, `interpolate(method='nearest')` on the temperature column. */
  function Interpolate(xs: seq<Option<real>>): (r: seq<Option<real>>)
    ensures |r| == |xs|
    ensures forall i :: 0 <= i < |xs| && xs[i].Some? ==> r[i] == xs[i]
  {
    seq(|xs|, i requires 0 <= i < |xs| => FillAt(xs, i))
  }

  function Distance(i: int, j: int): nat {
    if i <= j then j - i else i - j
  }

  /** `v` is the value of a valued position no farther from `i` than any
      other valued position. */
  predicate IsNearestValue(xs: seq<Option<real>>, i: int, v: real) {
    exists m :: 0 <= m < |xs| && xs[m] == Some(v) &&
      forall m' :: 0 <= m' < |xs| && xs[m'].Some? ==> Distance(i, m) <= Distance(i, m')
  }

  /** A gap with a value somewhere before it and somewhere after it is
      filled with the value of a nearest valued row. */
  lemma InteriorGapFilled(xs: seq<Option<real>>, i: int, j: int, k: int)
    requires 0 <= j < i < k < |xs| && xs[j].Some? && xs[k].Some? && xs[i].None?
    ensures Interpolate(xs)[i].Some?
    ensures IsNearestValue(xs, i, Interpolate(xs)[i].value)
  {
    var p, n := PrevValid(xs, i), NextValid(xs, i);
    assert p.Some? && n.Some?;
    var m := if i - p.value <= n.value - i then p.value else n.value;
    assert Interpolate(xs)[i] == xs[m];
    forall m' | 0 <= m' < |xs| && xs[m'].Some?
      ensures Distance(i, m) <= Distance(i, m')
    {
    }
  }

  /** A gap before the first value or after the last one is left missing. */
  lemma EdgeGapStays(xs: seq<Option<real>>, i: int)
    requires 0 <= i < |xs| && xs[i].None?
    requires (forall j :: 0 <= j < i ==> xs[j].None?) || (forall k :: i < k < |xs| ==> xs[k].None?)
    ensures Interpolate(xs)[i].None?
  {
    var p, n := PrevValid(xs, i), NextValid(xs, i);
    assert p.None? || n.None?;
  }

  /** After one pass every remaining gap is an edge gap, so a second pass
      changes nothing. */
  lemma InterpolateIdempotent(xs: seq<Option<real>>)
    ensures Interpolate(Interpolate(xs)) == Interpolate(xs)
  {
    var r := Interpolate(xs);
    forall i | 0 <= i < |r| && r[i].None?
      ensures Interpolate(r)[i].None?
    {
      GapAfterFill(xs, i);
    }
  }

  /** A gap that survives one pass has no value on one side afterwards. */
  lemma GapAfterFill(xs: seq<Option<real>>, i: int)
    requires 0 <= i < |xs| && Interpolate(xs)[i].None?
    ensures Interpolate(Interpolate(xs))[i].None?
  {
    var r := Interpolate(xs);
    assert xs[i].None?;
    if PrevValid(xs, i).None? {
      forall j | 0 <= j < i ensures r[j].None? {
        assert PrevValid(xs, j).None?;
      }
    } else {
      assert NextValid(xs, i).None?;
      forall k | i < k < |r| ensures r[k].None? {
        assert NextValid(xs, k).None?;
      }
    }
    EdgeGapStays(r, i);
  }

  // ---------------------------------------------------------------------
  // Projection to the cleaned columns

  /** One row of the cleaned output. */
  datatype CleanRow = CleanRow(settlementDate: string, observationDtgUtc: int, tempC: Option<real>, tsd: Option<real>)

  /** Lines 63-64: the four columns kept, `timestamp` renamed to `observation_dtg_utc`. */
  const CleanColumns: seq<string> := ["SETTLEMENT_DATE", "observation_dtg_utc", "temp_c", "TSD"]

  /** `rename(columns={from: to})` on a list of column names. */
  function Rename(cols: seq<string>, from: string, to: string): (r: seq<string>)
    ensures |r| == |cols|
    ensures forall i :: 0 <= i < |cols| && cols[i] != from ==> r[i] == cols[i]
    ensures forall c :: c in r <==> (c in cols && c != from) || (c == to && from in cols)
    ensures from !in cols ==> r == cols
    ensures from != to ==> from !in r
  {
    if |cols| == 0 then []
    else
      var rest := Rename(cols[1..], from, to);
      assert forall c :: c in cols <==> c == cols[0] || c in cols[1..];
      [if cols[0] == from then to else cols[0]] + rest
  }

  /** The selected columns with `timestamp` renamed are exactly the cleaned
      columns, in this order. */
  lemma CleanColumnNames()
    ensures Rename(["SETTLEMENT_DATE", "timestamp", "temp_c", "TSD"], "timestamp", "observation_dtg_utc") == CleanColumns
  {
  }

  /** The demand row's mean TSD, missing when the window had no reading. */
  function Tsd(b: Bucket): Option<real> {
    if "TSD" in b.readings then Some(b.readings["TSD"]) else None
  }

  /** The merged table's `temp_c` column. */
  function TempColumn(ms: seq<Merged>): seq<Option<real>> {
    seq(|ms|, i requires 0 <= i < |ms| => ms[i].tempC)
  }

  /** `combining_demand_temperature` without its file output. */
  function CombineDemandTemperature(demand: seq<Bucket>, temps: seq<Observation>): (r: seq<CleanRow>)
    ensures |r| == |LeftMerge(demand, temps)|
  {
    var merged := LeftMerge(demand, temps);
    var filled := Interpolate(TempColumn(merged));
    seq(|merged|, i requires 0 <= i < |merged| =>
      CleanRow(merged[i].bucket.settlementDate, merged[i].bucket.timestamp, filled[i], Tsd(merged[i].bucket)))
  }

  /** Cleaned row `i` is merged row `i`: its demand row's date label, its
      window start as the observation time and its mean TSD, with the
      temperature the merge found kept as it is. */
  lemma CombineRow(demand: seq<Bucket>, temps: seq<Observation>, i: int)
    requires 0 <= i < |LeftMerge(demand, temps)|
    ensures var row := CombineDemandTemperature(demand, temps)[i];
      var m := LeftMerge(demand, temps)[i];
      row.settlementDate == m.bucket.settlementDate &&
      row.observationDtgUtc == m.bucket.timestamp &&
      row.tsd == Tsd(m.bucket) &&
      (m.tempC.Some? ==> row.tempC == m.tempC)
  {
  }

  /** With unique observation times, cleaned row `i` is demand row `i`:
      its date label, its window start as the observation time, its mean
      TSD, and the temperature recorded at that window start when there is
      one. */
  lemma CombineUnique(demand: seq<Bucket>, temps: seq<Observation>, i: int)
    requires UniqueTimes(temps) && 0 <= i < |demand|
    ensures |CombineDemandTemperature(demand, temps)| == |demand|
    ensures var row := CombineDemandTemperature(demand, temps)[i];
      row.settlementDate == demand[i].settlementDate &&
      row.observationDtgUtc == demand[i].timestamp &&
      row.tsd == Tsd(demand[i]) &&
      (Lookup(temps, demand[i].timestamp).Some? && Lookup(temps, demand[i].timestamp).value.tempC.Some? ==>
        row.tempC == Lookup(temps, demand[i].timestamp).value.tempC)
  {
    UniqueMerge(demand, temps);
  }

  /** A cleaned row whose merged temperature is missing but which has a
      temperature somewhere above and below it takes the temperature of a
      nearest row. */
  lemma CombineFillsGap(demand: seq<Bucket>, temps: seq<Observation>, i: int, j: int, k: int)
    requires var ms := LeftMerge(demand, temps);
      0 <= j < i < k < |ms| && ms[j].tempC.Some? && ms[k].tempC.Some? && ms[i].tempC.None?
    ensures CombineDemandTemperature(demand, temps)[i].tempC.Some?
    ensures IsNearestValue(TempColumn(LeftMerge(demand, temps)), i, CombineDemandTemperature(demand, temps)[i].tempC.value)
  {
    InteriorGapFilled(TempColumn(LeftMerge(demand, temps)), i, j, k);
  }
}

=== FILE: dateformat.dfy ===
/** The date strings of the demand files: `YYYY-MM-DD` in the 2022 file,
    `DD-MON-YYYY` in the others, and the strftime/strptime directives
    (`%Y-%m-%d`, `%d-%b-%Y`) the consolidation uses to move between them.
    Parsing follows strptime: `%d` and `%m` take one or two digits, `%Y`
    exactly four, `%b` an English month abbreviation in any letter case,
    and the whole string must match. A string that does not parse, or names
    a day that does not exist or lies outside the pandas timestamp range,
    becomes a missing value (`errors='coerce'`). Only ASCII digits count
    as digits, and the cells `now` and `today`, which pandas reads as the
    current clock time, are treated like any other unparseable string:
    the model has no clock. */
module DateFormat {
  import opened Wrappers
  import opened Digits
  import opened Calendar

  /** `%b` in the English locale. */
  const MonthAbbrevs: seq<string> :=
    ["Jan", "Feb", "Mar", "Apr", "May", "Jun", "Jul", "Aug", "Sep", "Oct", "Nov", "Dec"]

  /** The month a three-letter abbreviation names, compared case-insensitively. */
  function MonthNumber(f: string): (r: Option<int>)
    ensures r.Some? ==> 1 <= r.value <= 12
  {
    var l := Lower(f);
    if l == "jan" then Some(1) else if l == "feb" then Some(2)
    else if l == "mar" then Some(3) else if l == "apr" then Some(4)
    else if l == "may" then Some(5) else if l == "jun" then Some(6)
    else if l == "jul" then Some(7) else if l == "aug" then Some(8)
    else if l == "sep" then Some(9) else if l == "oct" then Some(10)
    else if l == "nov" then Some(11) else if l == "dec" then Some(12)
    else None
  }

  lemma MonthNumberOfAbbrev(m: int)
    requires 1 <= m <= 12
    ensures MonthNumber(MonthAbbrevs[m - 1]) == Some(m)
    ensures MonthNumber(Upper(MonthAbbrevs[m - 1])) == Some(m)
  {
    var a := MonthAbbrevs[m - 1];
    LowerOfUpper(a);
    LowerThree(a);
    if m == 1 { assert Lower(a) == "jan"; }
    else if m == 2 { assert Lower(a) == "feb"; }
    else if m == 3 { assert Lower(a) == "mar"; }
    else if m == 4 { assert Lower(a) == "apr"; }
    else if m == 5 { assert Lower(a) == "may"; }
    else if m == 6 { assert Lower(a) == "jun"; }
    else if m == 7 { assert Lower(a) == "jul"; }
    else if m == 8 { assert Lower(a) == "aug"; }
    else if m == 9 { assert Lower(a) == "sep"; }
    else if m == 10 { assert Lower(a) == "oct"; }
    else if m == 11 { assert Lower(a) == "nov"; }
    else { assert Lower(a) == "dec"; }
  }

  /** A one- or two-digit numeric field with a value in [lo, hi]. */
  function ParseField(f: string, lo: int, hi: int): (r: Option<int>)
    ensures r.Some? ==> lo <= r.value <= hi
  {
    if 1 <= |f| <= 2 && AllDigits(f) && lo <= ValueOf(f) <= hi then Some(ValueOf(f)) else None
  }

  /** The date with these fields, if it exists and pandas can represent it. */
  function Checked(y: int, m: int, d: int): (r: Option<Date>)
    ensures r.Some? ==> r.value == Date(y, m, d) && InRange(r.value)
  {
    if InRange(Date(y, m, d)) then Some(Date(y, m, d)) else None
  }

  function IsoFields(yf: string, mf: string, df: string): (r: Option<Date>)
    requires AllDigits(yf)
    ensures r.Some? ==> InRange(r.value)
  {
    match (ParseField(mf, 1, 12), ParseField(df, 1, 31))
    case (Some(m), Some(d)) => Checked(ValueOf(yf), m, d)
    case _ => None
  }

  /** `pd.to_datetime(s, format='%Y-%m-%d', errors='coerce')` on one cell. */
  function ParseIso(s: string): (r: Option<Date>)
    ensures r.Some? ==> InRange(r.value)
  {
    if |s| < 8 || s[4] != '-' || !AllDigits(s[..4]) then None
    else
      var rest := s[5..];
      if rest[1] == '-' then IsoFields(s[..4], rest[..1], rest[2..])
      else if rest[2] == '-' then IsoFields(s[..4], rest[..2], rest[3..])
      else None
  }

  function DmyFields(df: string, rest: string): (r: Option<Date>)
    ensures r.Some? ==> InRange(r.value)
  {
    if |rest| != 8 || rest[3] != '-' || !AllDigits(rest[4..]) then None
    else
      match (ParseField(df, 1, 31), MonthNumber(rest[..3]))
      case (Some(d), Some(m)) => Checked(ValueOf(rest[4..]), m, d)
      case _ => None
  }

  /** `pd.to_datetime(s, format='%d-%b-%Y', errors='coerce')` on one cell. */
  function ParseDmy(s: string): (r: Option<Date>)
    ensures r.Some? ==> InRange(r.value)
  {
    if |s| >= 2 && s[1] == '-' then DmyFields(s[..1], s[2..])
    else if |s| >= 3 && s[2] == '-' then DmyFields(s[..2], s[3..])
    else None
  }

  /** `strftime('%Y-%m-%d')`. */
  function FormatIso(d: Date): string
    requires InRange(d)
  {
    Pad(d.year, 4) + "-" + Pad(d.month, 2) + "-" + Pad(d.day, 2)
  }

  /** `strftime('%d-%b-%Y')`, e.g. `01-Jan-2017`. */
  function Strftime(d: Date): string
    requires InRange(d)
  {
    Pad(d.day, 2) + "-" + MonthAbbrevs[d.month - 1] + "-" + Pad(d.year, 4)
  }

  /** The `%d-%b-%Y` form is always eleven characters: two-digit day, the
      month abbreviation and the four-digit year, separated by dashes. */
  lemma StrftimeShape(d: Date)
    requires InRange(d)
    ensures |Strftime(d)| == 11 && Strftime(d)[2] == '-' && Strftime(d)[6] == '-'
    ensures Strftime(d)[3..6] == MonthAbbrevs[d.month - 1]
  {
    PadRoundTrip(d.day, 2);
    PadRoundTrip(d.year, 4);
  }

  /** A four-digit year, a two-digit month and a two-digit day joined by
      dashes are split into exactly those fields. */
  lemma IsoLayout(yy: string, mm: string, dd: string)
    requires |yy| == 4 && AllDigits(yy) && |mm| == 2 && |dd| == 2
    ensures ParseIso(yy + "-" + mm + "-" + dd) == IsoFields(yy, mm, dd)
  {
    var s := yy + "-" + mm + "-" + dd;
    assert s[..4] == yy;
    var rest := s[5..];
    assert rest == mm + "-" + dd;
    assert rest[..2] == mm;
    assert rest[3..] == dd;
  }

  /** Every date pandas can hold is accepted back from its ISO form. */
  lemma IsoRoundTrip(d: Date)
    requires InRange(d)
    ensures ParseIso(FormatIso(d)) == Some(d)
  {
    PadRoundTrip(d.year, 4);
    PadRoundTrip(d.month, 2);
    PadRoundTrip(d.day, 2);
    IsoLayout(Pad(d.year, 4), Pad(d.month, 2), Pad(d.day, 2));
  }

  /** A two-digit day, a three-letter month and a four-digit year joined by
      dashes are split into exactly those fields. */
  lemma DmyLayout(dd: string, t: string, yy: string)
    requires |dd| == 2 && AllDigits(dd) && |t| == 3 && |yy| == 4 && AllDigits(yy)
    ensures ParseDmy(dd + "-" + t + "-" + yy) ==
      match (ParseField(dd, 1, 31), MonthNumber(t))
      case (Some(d), Some(m)) => Checked(ValueOf(yy), m, d)
      case _ => None
  {
    var s := dd + "-" + t + "-" + yy;
    assert s[1] != '-';
    assert s[..2] == dd;
    var rest := s[3..];
    assert rest == t + "-" + yy;
    assert rest[..3] == t;
    assert rest[4..] == yy;
  }

  lemma UpperOfStrftime(d: Date)
    requires InRange(d)
    ensures Upper(Strftime(d)) == Pad(d.day, 2) + "-" + Upper(MonthAbbrevs[d.month - 1]) + "-" + Pad(d.year, 4)
  {
    PadRoundTrip(d.day, 2);
    PadRoundTrip(d.year, 4);
    var a := MonthAbbrevs[d.month - 1];
    var dd, yy := Pad(d.day, 2), Pad(d.year, 4);
    UpperOfDigits(dd);
    UpperOfDigits(yy);
    UpperAppend(dd + "-" + a + "-", yy);
    UpperAppend(dd + "-" + a, "-");
    UpperAppend(dd + "-", a);
    UpperAppend(dd, "-");
  }

  /** `%d-%b-%Y` reads back what `strftime('%d-%b-%Y')` wrote, whether or
      not the month abbreviation was upper-cased afterwards. */
  lemma StrftimeRoundTrip(d: Date)
    requires InRange(d)
    ensures ParseDmy(Strftime(d)) == Some(d)
    ensures ParseDmy(Upper(Strftime(d))) == Some(d)
  {
    PadRoundTrip(d.day, 2);
    PadRoundTrip(d.year, 4);
    MonthNumberOfAbbrev(d.month);
    var a := MonthAbbrevs[d.month - 1];
    var dd, yy := Pad(d.day, 2), Pad(d.year, 4);
    DmyLayout(dd, a, yy);
    DmyLayout(dd, Upper(a), yy);
    UpperOfStrftime(d);
  }

  /** Lines 24-26 of the consolidation: a 2022 date is parsed as `%Y-%m-%d`
      and written back as upper-case `%d-%b-%Y`; a missing or unparseable
      cell stays missing rather than raising. */
  function Reformat2022(s: Option<string>): (r: Option<string>)
    ensures r.Some? <==> s.Some? && ParseIso(s.value).Some?
    ensures r.Some? ==> ParseDmy(r.value) == ParseIso(s.value)
    ensures r.Some? ==> r.value[3..6] == Upper(MonthAbbrevs[ParseIso(s.value).value.month - 1])
  {
    match s
    case None => None
    case Some(text) =>
      match ParseIso(text)
      case None => None
      case Some(d) =>
        StrftimeRoundTrip(d);
        StrftimeShape(d);
        Some(Upper(Strftime(d)))
  }

  /** pandas `Series.combine_first` on one cell: the first value unless it
      is missing. */
  function CombineFirst<T>(a: Option<T>, b: Option<T>): Option<T> {
    if a.Some? then a else b
  }

  /** Line 31: every `SETTLEMENT_DATE` cell parsed as `%d-%b-%Y`, the parse
      combined with itself. Combining a column with itself changes nothing,
      so this is the plain parse. */
  function NormaliseDate(s: Option<string>): (r: Option<Date>)
    ensures s.None? ==> r.None?
    ensures s.Some? ==> r == ParseDmy(s.value)
    ensures r.Some? ==> InRange(r.value)
  {
    var parsed := if s.Some? then ParseDmy(s.value) else None;
    CombineFirst(parsed, parsed)
  }

  /** A 2022 date survives the reformat and the combined parse unchanged. */
  lemma ReformatThenNormalise(s: string)
    ensures NormaliseDate(Reformat2022(Some(s))) == ParseIso(s)
  {
  }

  /** A date written in the other years' format survives the combined parse. */
  lemma NormaliseStrftime(d: Date)
    requires InRange(d)
    ensures NormaliseDate(Some(Upper(Strftime(d)))) == Some(d)
  {
    StrftimeRoundTrip(d);
  }
}

=== FILE: demand.dfy ===
/** Consolidation of the six yearly demand tables into one table of 6-hour
    means (`DataProcessor.consolidate_demand`). */
module Demand {
  import opened Wrappers
  import opened Calendar
  import opened DateFormat

  /** The numeric columns of one row (TSD, ND, ...) by column name; a column
      that is absent from the map holds NaN in that row. */
  type Readings = map<string, real>

  /** One row of a yearly demand file as read from CSV; an empty
      `SETTLEMENT_DATE` or `SETTLEMENT_PERIOD` cell is missing. */
  datatype RawRow = RawRow(settlementDate: Option<string>, period: Option<int>, readings: Readings)

  type Table = seq<RawRow>

  /** A demand row after its `SETTLEMENT_DATE` column was parsed to a date. */
  datatype DatedRow = DatedRow(date: Option<Date>, period: Option<int>, readings: Readings)

  /** One row of the resampled table: the bucket's start, its calendar day
      written back as `%d-%b-%Y`, and the means of the period and of every
      numeric column over the readings in the bucket. */
  datatype Bucket = Bucket(timestamp: int, settlementDate: string, meanPeriod: Option<real>, readings: Readings)

  /** Line 33 first turns every period into an offset of `(period - 1) * 30`
      minutes, then adds the offsets to the dates. An offset pandas cannot
      hold as a `Timedelta` raises `OffsetOverflow`; a sum it cannot hold as
      a timestamp raises `TimestampOverflow`. Either ends the run. */
  datatype Error = OffsetOverflow | TimestampOverflow


  /** The first and one-past-last minute pandas timestamps can represent in this model. */
  const RangeStart: int := 882017280
  const RangeEnd: int := 1189170720

  /** The range is midnight of 1678-01-01 up to midnight of 2262-01-01. */
  lemma RangeBounds()
    ensures RangeStart == DaysBeforeYear(MinYear) * 1440
    ensures RangeEnd == DaysBeforeYear(MaxYear + 1) * 1440
  {
  }

  // ---------------------------------------------------------------------
  // Date reformat and concatenation

  /** Lines 24-26 applied to the 2022 table: only the date column changes. */
  function ReformatTable(t: Table): (r: Table)
    ensures |r| == |t|
    ensures forall i :: 0 <= i < |t| ==>
      r[i].period == t[i].period && r[i].readings == t[i].readings &&
      NormaliseDate(r[i].settlementDate) ==
        (if t[i].settlementDate.Some? then ParseIso(t[i].settlementDate.value) else None)
  {
    seq(|t|, i requires 0 <= i < |t| => t[i].(settlementDate := Reformat2022(t[i].settlementDate)))
  }

  function TotalRows(tables: seq<Table>): nat {
    if |tables| == 0 then 0 else |tables[0]| + TotalRows(tables[1..])
  }

  lemma TotalRowsSplit(tables: seq<Table>, i: int)
    requires 0 <= i < |tables|
    ensures TotalRows(tables[i..]) == |tables[i]| + TotalRows(tables[i + 1..])
  {
    assert tables[i..][1..] == tables[i + 1..];
  }

  /** `pd.concat`: the tables one after the other. */
  function Concat(tables: seq<Table>): (r: Table)
    ensures |r| == TotalRows(tables)
  {
    if |tables| == 0 then [] else tables[0] + Concat(tables[1..])
  }

  lemma {:induction false} TotalRowsAppend(tables: seq<Table>, t: Table)
    ensures TotalRows(tables + [t]) == TotalRows(tables) + |t|
  {
    if |tables| > 0 {
      assert (tables + [t])[1..] == tables[1..] + [t];
      TotalRowsAppend(tables[1..], t);
    }
  }

  /** Row `j` of table `i` sits in the concatenation right after the rows
      of the tables before it: file order, then row order. */
  lemma {:induction false} ConcatPosition(tables: seq<Table>, i: int, j: int)
    requires 0 <= i < |tables| && 0 <= j < |tables[i]|
    ensures TotalRows(tables[..i]) + j < |Concat(tables)|
    ensures Concat(tables)[TotalRows(tables[..i]) + j] == tables[i][j]
  {
    if i > 0 {
      ConcatPosition(tables[1..], i - 1, j);
      assert tables[1..][..i - 1] == tables[..i][1..];
      assert TotalRows(tables[..i]) == |tables[0]| + TotalRows(tables[1..][..i - 1]);
    }
  }

  // ---------------------------------------------------------------------
  // Timestamps and 6-hour buckets

  /** Line 33: the date's midnight plus `(period - 1) * 30` minutes. */
  function Timestamp(d: Date, period: int): int
    requires WellFormed(d)
  {
    Midnight(d) + (period - 1) * 30
  }

  /** A row's timestamp; a missing date or period makes it missing (`NaT`). */
  function Stamp(r: DatedRow): Option<int> {
    if r.date.Some? && r.period.Some? && WellFormed(r.date.value) then
      Some(Timestamp(r.date.value, r.period.value))
    else None
  }

  /** The number of the 6-hour (360-minute) window holding minute `t`, counting windows
      from 0001-01-01 00:00; windows are aligned to midnight. */
  function BucketIndex(t: int): int {
    t / 360
  }

  /** The start of the midnight-aligned 6-hour window holding minute `t`. */
  function BucketStart(t: int): (b: int)
    ensures b % 360 == 0 && b <= t < b + 360
  {
    360 * BucketIndex(t)
  }

  lemma BucketIndexMonotone(a: int, b: int)
    requires a <= b
    ensures BucketIndex(a) <= BucketIndex(b)
  {
  }

  /** A minute at or after the start of window `w` lies in window `w` or later. */
  lemma BucketIndexAtLeast(t: int, w: int)
    requires 360 * w <= t
    ensures w <= BucketIndex(t)
  {
    var q := BucketIndex(t);
    assert t == 360 * q + t % 360;
    assert q < w ==> 360 * q + 360 <= 360 * w;
  }

  /** A minute before the start of window `w` lies in a window before `w`. */
  lemma BucketIndexBelow(t: int, w: int)
    requires t < 360 * w
    ensures BucketIndex(t) < w
  {
    var q := BucketIndex(t);
    assert t == 360 * q + t % 360;
    assert q >= w ==> 360 * q >= 360 * w;
  }

  lemma MinuteOfDay(n: int, offset: int)
    requires 0 <= offset < 1440
    ensures (n * 1440 + offset) / 1440 == n
    ensures BucketStart(n * 1440 + offset) == n * 1440 + 360 * (offset / 360)
  {
    var x := n * 1440 + offset;
    var q := x / 1440;
    assert x == 1440 * q + x % 1440;
    assert 1440 * (q - n) == offset - x % 1440;
    assert q - n >= 1 ==> 1440 * (q - n) >= 1440;
    assert q - n <= -1 ==> 1440 * (q - n) <= -1440;
    var w := offset / 360;
    assert offset == 360 * w + offset % 360;
    assert x == 360 * (4 * n + w) + offset % 360;
    assert x == 360 * (x / 360) + x % 360;
    var k := x / 360 - 4 * n - w;
    assert 360 * k == offset % 360 - x % 360;
    assert k >= 1 ==> 360 * k >= 360;
    assert k <= -1 ==> 360 * k <= -360;
  }

  /** A settlement period 1..48 stays on its own calendar day and falls in
      window `(period - 1) / 12` of that day: periods 1-12 at 00:00, 13-24
      at 06:00, 25-36 at 12:00 and 37-48 at 18:00. */
  lemma PeriodWithinDay(d: Date, period: int)
    requires WellFormed(d) && 1 <= period <= 48
    ensures Midnight(d) <= Timestamp(d, period) < Midnight(d) + 1440
    ensures Timestamp(d, period) / 1440 == DayNumber(d)
    ensures BucketStart(Timestamp(d, period)) == Midnight(d) + 360 * ((period - 1) / 12)
  {
    var offset := (period - 1) * 30;
    MinuteOfDay(DayNumber(d), offset);
    assert offset / 360 == (period - 1) / 12;
  }

  // ---------------------------------------------------------------------
  // Collecting the readings of one bucket

  /** The timestamps of the rows that have one, in row order. */
  function Stamps(rows: seq<DatedRow>): seq<int> {
    if |rows| == 0 then []
    else
      var rest := Stamps(rows[1..]);
      match Stamp(rows[0])
      case Some(t) => [t] + rest
      case None => rest
  }

  lemma {:induction false} StampsMembers(rows: seq<DatedRow>)
    ensures forall t :: t in Stamps(rows) <==> exists k :: 0 <= k < |rows| && Stamp(rows[k]) == Some(t)
  {
    if |rows| > 0 {
      StampsMembers(rows[1..]);
      assert forall k :: 1 <= k < |rows| ==> rows[k] == rows[1..][k - 1];
    }
  }

  function MinOf(ts: seq<int>): (m: int)
    requires |ts| > 0
    ensures m in ts && forall t :: t in ts ==> m <= t
  {
    if |ts| == 1 then ts[0]
    else
      var rest := MinOf(ts[1..]);
      assert forall t :: t in ts ==> t == ts[0] || t in ts[1..];
      if ts[0] <= rest then ts[0] else rest
  }

  function MaxOf(ts: seq<int>): (m: int)
    requires |ts| > 0
    ensures m in ts && forall t :: t in ts ==> t <= m
  {
    if |ts| == 1 then ts[0]
    else
      var rest := MaxOf(ts[1..]);
      assert forall t :: t in ts ==> t == ts[0] || t in ts[1..];
      if ts[0] >= rest then ts[0] else rest
  }

  predicate InBucket(r: DatedRow, b: int) {
    Stamp(r).Some? && BucketStart(Stamp(r).value) == b
  }

  /** The rows whose timestamp falls in the window starting at `b`, in order. */
  function Assigned(rows: seq<DatedRow>, b: int): seq<DatedRow> {
    if |rows| == 0 then []
    else
      var rest := Assigned(rows[1..], b);
      if InBucket(rows[0], b) then [rows[0]] + rest else rest
  }

  /** A row is among a window's readings exactly when its timestamp lies in
      that window. */
  lemma {:induction false} AssignedMembers(rows: seq<DatedRow>, b: int)
    ensures forall r :: r in Assigned(rows, b) <==> r in rows && InBucket(r, b)
  {
    if |rows| > 0 {
      AssignedMembers(rows[1..], b);
      assert forall r :: r in rows <==> r == rows[0] || r in rows[1..];
    }
  }

  function Sum(xs: seq<real>): real {
    if |xs| == 0 then 0.0 else xs[0] + Sum(xs[1..])
  }

  /** `v` is the arithmetic mean of the non-empty `xs`. */
  predicate IsMeanOf(v: real, xs: seq<real>) {
    |xs| > 0 && v * (|xs| as real) == Sum(xs)
  }

  function Mean(xs: seq<real>): (m: real)
    requires |xs| > 0
    ensures IsMeanOf(m, xs)
  {
    Sum(xs) / (|xs| as real)
  }

  lemma MeanIsMean(xs: seq<real>, v: real)
    requires |xs| > 0 && v == Mean(xs)
    ensures IsMeanOf(v, xs)
  {
  }

  /** Some row has a value in column `c`. */
  predicate HasColumn(rows: seq<DatedRow>, c: string) {
    exists r :: r in rows && c in r.readings
  }

  /** The non-missing values of column `c`, in row order. */
  function ColumnValues(rows: seq<DatedRow>, c: string): (vs: seq<real>)
    ensures |vs| > 0 <==> HasColumn(rows, c)
  {
    if |rows| == 0 then []
    else
      var rest := ColumnValues(rows[1..], c);
      assert forall r :: r in rows[1..] ==> r in rows;
      assert forall r :: r in rows ==> r == rows[0] || r in rows[1..];
      if c in rows[0].readings then [rows[0].readings[c]] + rest else rest
  }

  /** Every column that has a value in at least one of the rows. */
  function Columns(rows: seq<DatedRow>): (cs: set<string>)
    ensures forall c :: c in cs <==> HasColumn(rows, c)
  {
    if |rows| == 0 then {}
    else
      assert forall r :: r in rows ==> r == rows[0] || r in rows[1..];
      rows[0].readings.Keys + Columns(rows[1..])
  }

  /** The mean of every numeric column over `rows`, skipping missing values;
      a column with no value in any of the rows stays missing. */
  function MeanReadings(rows: seq<DatedRow>): Readings {
    var cs := Columns(rows);
    assert forall c :: c in cs ==> |ColumnValues(rows, c)| > 0;
    map c | c in cs :: Mean(ColumnValues(rows, c))
  }

  /** A column has a mean exactly when some row has a value in it, and that
      mean is the arithmetic mean of the column's non-missing values. */
  lemma MeanReadingsSpec(rows: seq<DatedRow>, c: string)
    ensures c in MeanReadings(rows) <==> HasColumn(rows, c)
    ensures c in MeanReadings(rows) ==> IsMeanOf(MeanReadings(rows)[c], ColumnValues(rows, c))
  {
    if c in MeanReadings(rows) {
      MeanIsMean(ColumnValues(rows, c), MeanReadings(rows)[c]);
    }
  }

  /** The periods that are present, in row order. */
  function Periods(rows: seq<DatedRow>): (ps: seq<real>)
    ensures |ps| > 0 <==> exists r :: r in rows && r.period.Some?
  {
    if |rows| == 0 then []
    else
      var rest := Periods(rows[1..]);
      assert forall r :: r in rows[1..] ==> r in rows;
      assert forall r :: r in rows ==> r == rows[0] || r in rows[1..];
      if rows[0].period.Some? then [rows[0].period.value as real] + rest else rest
  }

  function MeanPeriod(rows: seq<DatedRow>): Option<real> {
    var ps := Periods(rows);
    if |ps| == 0 then None else Some(Mean(ps))
  }

  /** The mean period skips missing periods and is missing only when no
      row has one. */
  lemma MeanPeriodSpec(rows: seq<DatedRow>)
    ensures MeanPeriod(rows).Some? <==> exists r :: r in rows && r.period.Some?
    ensures MeanPeriod(rows).Some? ==> IsMeanOf(MeanPeriod(rows).value, Periods(rows))
  {
    if MeanPeriod(rows).Some? {
      MeanIsMean(Periods(rows), MeanPeriod(rows).value);
    }
  }

  predicate StampInRange(t: int) {
    RangeStart <= t < RangeEnd
  }

  /** A `Timedelta` is a signed 64-bit count of nanoseconds, so the longest
      offset in whole minutes is (2^63 - 1) / (60 * 10^9), rounded down. */
  const MaxOffsetMinutes: int := 153722867

  /** `to_timedelta((period - 1) * 30, unit='m')` can hold this period's offset. */
  predicate OffsetInRange(period: int) {
    -MaxOffsetMinutes <= (period - 1) * 30 <= MaxOffsetMinutes
  }

  /** Every present period has an offset pandas can hold, whether or not
      its row has a date. */
  predicate AllOffsetsInRange(rows: seq<DatedRow>) {
    forall k :: 0 <= k < |rows| && rows[k].period.Some? ==> OffsetInRange(rows[k].period.value)
  }

  /** The day holding a representable minute lies in a representable year. */
  lemma DayOfStampInRange(t: int)
    requires StampInRange(t)
    ensures InRange(DateOfDay(t / 1440))
  {
    assert DaysBeforeYear(MinYear) == 612512 && DaysBeforeYear(MaxYear + 1) == 825813;
    var n := t / 1440;
    assert 612512 <= n < 825813;
    var d := DateOfDay(n);
    WithinYear(d);
    if d.year < MinYear {
      DaysBeforeYearMonotone(d.year + 1, MinYear);
    } else if d.year > MaxYear {
      DaysBeforeYearMonotone(MaxYear + 1, d.year);
    }
  }

  /** Line 38: the window's calendar day as `%d-%b-%Y` (not upper-cased). */
  function DayLabel(b: int): string
    requires StampInRange(b)
  {
    DayOfStampInRange(b);
    Strftime(DateOfDay(b / 1440))
  }

  function MakeBucket(rows: seq<DatedRow>, b: int): (r: Bucket)
    requires StampInRange(b)
    ensures r.timestamp == b
  {
    var members := Assigned(rows, b);
    Bucket(b, DayLabel(b), MeanPeriod(members), MeanReadings(members))
  }

  predicate AllStampsInRange(rows: seq<DatedRow>) {
    forall k :: 0 <= k < |rows| && Stamp(rows[k]).Some? ==> StampInRange(Stamp(rows[k]).value)
  }

  /** The starts of the windows numbered `first` to `first + n - 1`, in order. */
  function Windows(first: int, n: nat): (r: seq<int>)
    requires n > 0 ==> StampInRange(360 * first) && StampInRange(360 * (first + n - 1))
    ensures |r| == n
    ensures forall i :: 0 <= i < n ==> r[i] == 360 * (first + i)
    ensures forall i :: 0 <= i < n ==> StampInRange(r[i])
    decreases n
  {
    if n == 0 then []
    else [360 * first] + Windows(first + 1, n - 1)
  }

  lemma StampsInRange(rows: seq<DatedRow>, t: int)
    requires AllStampsInRange(rows) && t in Stamps(rows)
    ensures StampInRange(t)
  {
    StampsMembers(rows);
    var k :| 0 <= k < |rows| && Stamp(rows[k]) == Some(t);
  }

  /** Line 35, `resample('6H').mean()`: one row per 6-hour window from the
      window of the earliest reading to the window of the latest, empty
      windows included. Rows without a date take no part. */
  function Resample(rows: seq<DatedRow>): (r: seq<Bucket>)
    requires AllStampsInRange(rows)
    ensures |Stamps(rows)| == 0 ==> r == []
    ensures |Stamps(rows)| > 0 ==>
      |r| == BucketIndex(MaxOf(Stamps(rows))) - BucketIndex(MinOf(Stamps(rows))) + 1
    ensures |Stamps(rows)| > 0 ==> forall i :: 0 <= i < |r| ==>
      r[i].timestamp == BucketStart(MinOf(Stamps(rows))) + 360 * i
    ensures forall i :: 0 <= i < |r| ==> StampInRange(r[i].timestamp)
  {
    var ts := Stamps(rows);
    if |ts| == 0 then []
    else
      var lo, hi := MinOf(ts), MaxOf(ts);
      BucketIndexMonotone(lo, hi);
      StampsInRange(rows, lo);
      StampsInRange(rows, hi);
      BucketIndexAtLeast(lo, RangeStart / 360);
      BucketIndexBelow(hi, RangeEnd / 360);
      var starts := Windows(BucketIndex(lo), BucketIndex(hi) - BucketIndex(lo) + 1);
      seq(|starts|, i requires 0 <= i < |starts| => MakeBucket(rows, starts[i]))
  }

  // ---------------------------------------------------------------------
  // The consolidation and its properties

  /** Lines 24-29: the 2022 table's dates reformatted, then the six tables
      concatenated in file order. */
  function Combined(files: seq<Table>): (t: Table)
    requires |files| == 6
    ensures |t| == |files[0]| + |files[1]| + |files[2]| + |files[3]| + |files[4]| + |files[5]|
  {
    var tables := files[..5] + [ReformatTable(files[5])];
    TotalRowsSplit(tables, 0);
    TotalRowsSplit(tables, 1);
    TotalRowsSplit(tables, 2);
    TotalRowsSplit(tables, 3);
    TotalRowsSplit(tables, 4);
    TotalRowsSplit(tables, 5);
    Concat(tables)
  }

  /** Each resampled row holds the statistics of its own window. */
  lemma ResampleWindow(rows: seq<DatedRow>)
    requires AllStampsInRange(rows)
    ensures forall i :: 0 <= i < |Resample(rows)| ==>
      Resample(rows)[i] == MakeBucket(rows, Resample(rows)[i].timestamp)
  {
  }

  /** Line 31 on every row of the concatenated table. */
  function ParseDates(t: Table): (r: seq<DatedRow>)
    ensures |r| == |t|
    ensures forall i :: 0 <= i < |t| ==>
      r[i].date == NormaliseDate(t[i].settlementDate) &&
      r[i].period == t[i].period && r[i].readings == t[i].readings
  {
    seq(|t|, i requires 0 <= i < |t| => DatedRow(NormaliseDate(t[i].settlementDate), t[i].period, t[i].readings))
  }

  /** `consolidate_demand` without its file I/O. pandas refuses offsets
      and timestamps it cannot represent, which aborts the run; the offsets
      are converted first. */
  function ConsolidateDemand(files: seq<Table>): (r: Result<seq<Bucket>, Error>)
    requires |files| == 6
    ensures r == Failure(OffsetOverflow) <==> !AllOffsetsInRange(ParseDates(Combined(files)))
    ensures r.Failure? <==>
      !AllOffsetsInRange(ParseDates(Combined(files))) || !AllStampsInRange(ParseDates(Combined(files)))
    ensures r.Success? ==> r.value == Resample(ParseDates(Combined(files)))
  {
    var rows := ParseDates(Combined(files));
    if !AllOffsetsInRange(rows) then Failure(OffsetOverflow)
    else if !AllStampsInRange(rows) then Failure(TimestampOverflow)
    else Success(Resample(rows))
  }

  /** A row's timestamp is among the stamps of the table. */
  lemma {:induction false} StampListed(rows: seq<DatedRow>, k: int)
    requires 0 <= k < |rows| && Stamp(rows[k]).Some?
    ensures Stamp(rows[k]).value in Stamps(rows)
  {
    if k > 0 {
      StampListed(rows[1..], k - 1);
    }
  }

  /** The window of every stamp is a row of the resampled table. */
  lemma StampWindow(rows: seq<DatedRow>, t: int)
    requires AllStampsInRange(rows) && t in Stamps(rows)
    ensures var i := BucketIndex(t) - BucketIndex(MinOf(Stamps(rows)));
      0 <= i < |Resample(rows)| && Resample(rows)[i].timestamp == BucketStart(t)
  {
    var ts := Stamps(rows);
    BucketIndexMonotone(MinOf(ts), t);
    BucketIndexMonotone(t, MaxOf(ts));
  }

  /** Every reading with a timestamp lands in the resampled row of its own
      window, and that row's statistics are taken over it. */
  lemma ReadingInItsWindow(rows: seq<DatedRow>, k: int)
    requires AllStampsInRange(rows)
    requires 0 <= k < |rows| && Stamp(rows[k]).Some?
    ensures |Stamps(rows)| > 0
    ensures var i := BucketIndex(Stamp(rows[k]).value) - BucketIndex(MinOf(Stamps(rows)));
      0 <= i < |Resample(rows)| &&
      Resample(rows)[i].timestamp == BucketStart(Stamp(rows[k]).value) &&
      rows[k] in Assigned(rows, Resample(rows)[i].timestamp)
  {
    var t := Stamp(rows[k]).value;
    ReadingWindowIndex(rows, k, t);
    AssignedMembers(rows, BucketStart(t));
    assert rows[k] in rows;
  }

  /** The resampled row of a reading's window sits at the reading's window
      number counted from the first window. */
  lemma ReadingWindowIndex(rows: seq<DatedRow>, k: int, t: int)
    requires AllStampsInRange(rows)
    requires 0 <= k < |rows| && Stamp(rows[k]) == Some(t)
    ensures |Stamps(rows)| > 0
    ensures var i := BucketIndex(t) - BucketIndex(MinOf(Stamps(rows)));
      0 <= i < |Resample(rows)| && Resample(rows)[i].timestamp == BucketStart(t)
  {
    StampListed(rows, k);
    StampWindow(rows, t);
  }

  /** Each resampled value is the arithmetic mean of the readings in its
      window: a column has a value exactly when some reading in the window
      has one, and then it is the mean of that column's values there. */
  lemma WindowMeans(rows: seq<DatedRow>, b: int, c: string)
    requires StampInRange(b)
    ensures c in MakeBucket(rows, b).readings <==>
      exists row :: row in rows && InBucket(row, b) && c in row.readings
    ensures c in MakeBucket(rows, b).readings ==>
      IsMeanOf(MakeBucket(rows, b).readings[c], ColumnValues(Assigned(rows, b), c))
  {
    var members := Assigned(rows, b);
    assert MakeBucket(rows, b).readings == MeanReadings(members);
    AssignedMembers(rows, b);
    MeanReadingsSpec(members, c);
    assert HasColumn(members, c) <==> exists row :: row in rows && InBucket(row, b) && c in row.readings;
  }

  /** The period column is averaged like the others: it has a value exactly
      when the window holds a reading. */
  lemma WindowMeanPeriod(rows: seq<DatedRow>, b: int)
    requires StampInRange(b)
    ensures MakeBucket(rows, b).meanPeriod.Some? <==> exists row :: row in rows && InBucket(row, b)
    ensures MakeBucket(rows, b).meanPeriod.Some? ==>
      IsMeanOf(MakeBucket(rows, b).meanPeriod.value, Periods(Assigned(rows, b)))
  {
    var members := Assigned(rows, b);
    assert MakeBucket(rows, b).meanPeriod == MeanPeriod(members);
    MeanPeriodSpec(members);
    AssignedMembers(rows, b);
  }

  /** The `SETTLEMENT_DATE` written back on a resampled row reads back as
      the calendar day its window starts on. */
  lemma DayLabelRoundTrip(b: int)
    requires StampInRange(b)
    ensures ParseDmy(DayLabel(b)).Some?
    ensures DayNumber(ParseDmy(DayLabel(b)).value) == b / 1440
  {
    DayOfStampInRange(b);
    StrftimeRoundTrip(DateOfDay(b / 1440));
  }

  lemma MidnightInRange(d: Date)
    requires InRange(d)
    ensures StampInRange(Midnight(d))
    ensures DaysBeforeYear(d.year) <= DayNumber(d) < DaysBeforeYear(d.year + 1)
  {
    RangeBounds();
    WithinYear(d);
    DaysBeforeYearMonotone(MinYear, d.year);
    DaysBeforeYearMonotone(d.year + 1, MaxYear + 1);
  }

  /** A reading for settlement period 1..48 of day `d` lands in a window
      whose `SETTLEMENT_DATE` is `d` again. */
  lemma WindowDayOfReading(d: Date, period: int)
    requires InRange(d) && 1 <= period <= 48
    ensures StampInRange(BucketStart(Timestamp(d, period)))
    ensures DayLabel(BucketStart(Timestamp(d, period))) == Strftime(d)
  {
    var b := BucketStart(Timestamp(d, period));
    WindowOnSameDay(d, period);
    MidnightInRange(d);
    assert 612512 <= DayNumber(d) < 825813;
    assert StampInRange(b);
    DayLabelOfDay(b, d);
  }

  /** A window starting on day `d` is labelled with `d`. */
  lemma DayLabelOfDay(b: int, d: Date)
    requires InRange(d) && StampInRange(b) && b / 1440 == DayNumber(d)
    ensures DayLabel(b) == Strftime(d)
  {
    DateOfDayNumber(d);
  }

  lemma WindowOnSameDay(d: Date, period: int)
    requires WellFormed(d) && 1 <= period <= 48
    ensures Midnight(d) <= BucketStart(Timestamp(d, period)) < Midnight(d) + 1440
    ensures BucketStart(Timestamp(d, period)) / 1440 == DayNumber(d)
  {
    PeriodWithinDay(d, period);
    var q := (period - 1) / 12;
    MinuteOfDay(DayNumber(d), 360 * q);
  }

  /** Readings dated in 2017-2022 for periods 1..48 carry timestamps from
      2017-01-01 00:00 up to, not including, 2023-01-01 00:00. */
  lemma SixYearStamps(rows: seq<DatedRow>)
    requires forall k :: 0 <= k < |rows| && Stamp(rows[k]).Some? ==>
      InRange(rows[k].date.value) && 2017 <= rows[k].date.value.year <= 2022 &&
      1 <= rows[k].period.value <= 48
    ensures forall k :: 0 <= k < |rows| && Stamp(rows[k]).Some? ==>
      DaysBeforeYear(2017) * 1440 <= Stamp(rows[k]).value < DaysBeforeYear(2023) * 1440
  {
    forall k | 0 <= k < |rows| && Stamp(rows[k]).Some?
      ensures DaysBeforeYear(2017) * 1440 <= Stamp(rows[k]).value < DaysBeforeYear(2023) * 1440
    {
      var d := rows[k].date.value;
      PeriodWithinDay(d, rows[k].period.value);
      MidnightInRange(d);
      DaysBeforeYearMonotone(2017, d.year);
      DaysBeforeYearMonotone(d.year + 1, 2023);
    }
  }

  /** The autumn clock change gives a day 50 settlement periods; periods
      49 and 50 of any such day in 2017-2022 (2022-12-31 is not one) still
      fall before 2023-01-01 00:00. */
  lemma LongDayStamp(d: Date, period: int)
    requires InRange(d) && 2017 <= d.year <= 2022 && d != Date(2022, 12, 31)
    requires 1 <= period <= 50
    ensures DaysBeforeYear(2017) * 1440 <= Timestamp(d, period) < DaysBeforeYear(2023) * 1440
  {
    MidnightInRange(d);
    DaysBeforeYearMonotone(2017, d.year);
    if d.year < 2022 {
      DaysBeforeYearMonotone(d.year + 1, 2023);
    } else {
      var last := Date(2022, 12, 31);
      YearStep(2022);
      assert DayNumber(last) == DaysBeforeYear(2023) - 1;
      if DayNumber(d) == DayNumber(last) {
        SameDayWithinYear(d, last);
      }
    }
    assert DayNumber(d) + 2 <= DaysBeforeYear(2023);
  }

  /** When no timestamp precedes window `w` and some reading falls in it,
      the resampled table starts with window `w`. */
  lemma FirstWindowIs(rows: seq<DatedRow>, w: int, k: int)
    requires forall j :: 0 <= j < |rows| && Stamp(rows[j]).Some? ==> 360 * w <= Stamp(rows[j]).value
    requires 0 <= k < |rows| && Stamp(rows[k]).Some? && BucketIndex(Stamp(rows[k]).value) == w
    ensures |Stamps(rows)| > 0 && BucketIndex(MinOf(Stamps(rows))) == w
  {
    StampsMembers(rows);
    var t := Stamp(rows[k]).value;
    assert t in Stamps(rows);
    var lo := MinOf(Stamps(rows));
    BucketIndexAtLeast(lo, w);
    BucketIndexMonotone(lo, t);
  }

  /** When no timestamp follows window `w` and some reading falls in it,
      the resampled table ends with window `w`. */
  lemma LastWindowIs(rows: seq<DatedRow>, w: int, k: int)
    requires forall j :: 0 <= j < |rows| && Stamp(rows[j]).Some? ==> Stamp(rows[j]).value < 360 * (w + 1)
    requires 0 <= k < |rows| && Stamp(rows[k]).Some? && BucketIndex(Stamp(rows[k]).value) == w
    ensures |Stamps(rows)| > 0 && BucketIndex(MaxOf(Stamps(rows))) == w
  {
    StampsMembers(rows);
    var t := Stamp(rows[k]).value;
    assert t in Stamps(rows);
    var hi := MaxOf(Stamps(rows));
    BucketIndexBelow(hi, w + 1);
    BucketIndexMonotone(t, hi);
  }

  /** For readings from 2017-01-01 00:00 up to 2023-01-01 00:00, with one
      in the first window of 2017-01-01 and one in the last window of
      2022-12-31, the resampled table has (365 * 5 + 366) * 4 = 8764 rows. */
  lemma SixYearWindowCount(rows: seq<DatedRow>)
    requires forall k :: 0 <= k < |rows| && Stamp(rows[k]).Some? ==>
      DaysBeforeYear(2017) * 1440 <= Stamp(rows[k]).value < DaysBeforeYear(2023) * 1440
    requires exists k :: 0 <= k < |rows| && rows[k].date == Some(Date(2017, 1, 1)) && rows[k].period.Some? && 1 <= rows[k].period.value <= 12
    requires exists k :: 0 <= k < |rows| && rows[k].date == Some(Date(2022, 12, 31)) && rows[k].period.Some? && 37 <= rows[k].period.value <= 48
    ensures AllStampsInRange(rows)
    ensures |Resample(rows)| == 8764
  {
    assert DaysBeforeYear(2017) * 1440 == 1060313760;
    assert DaysBeforeYear(2023) * 1440 == 1063468800;
    var k0 :| 0 <= k0 < |rows| && rows[k0].date == Some(Date(2017, 1, 1)) &&
      rows[k0].period.Some? && 1 <= rows[k0].period.value <= 12;
    var k1 :| 0 <= k1 < |rows| && rows[k1].date == Some(Date(2022, 12, 31)) &&
      rows[k1].period.Some? && 37 <= rows[k1].period.value <= 48;
    PeriodWithinDay(Date(2017, 1, 1), rows[k0].period.value);
    PeriodWithinDay(Date(2022, 12, 31), rows[k1].period.value);
    MidnightInRange(Date(2017, 1, 1));
    MidnightInRange(Date(2022, 12, 31));
    FirstWindowIs(rows, 2945316, k0);
    LastWindowIs(rows, 2954079, k1);
  }

  // ---------------------------------------------------------------------
  // From the yearly files to the resampled table

  /** The date a file's raw `SETTLEMENT_DATE` cell stands for once it is in
      the consolidated table: `%d-%b-%Y` for the 2017-2021 files (indices
      0-4), and `%Y-%m-%d` for the 2022 file (index 5), by way of the
      reformat. */
  function FileDate(f: int, cell: Option<string>): (r: Option<Date>)
    ensures r.Some? ==> InRange(r.value)
  {
    if cell.None? then None
    else if f == 5 then ParseIso(cell.value)
    else ParseDmy(cell.value)
  }

  /** Every row of the concatenation comes from some row of some table. */
  lemma {:induction false} RowOrigin(tables: seq<Table>, k: int) returns (i: int, j: int)
    requires 0 <= k < TotalRows(tables)
    ensures 0 <= i < |tables| && 0 <= j < |tables[i]|
    ensures k == TotalRows(tables[..i]) + j
  {
    if k < |tables[0]| {
      i, j := 0, k;
    } else {
      var i', j' := RowOrigin(tables[1..], k - |tables[0]|);
      i, j := i' + 1, j';
      assert tables[1..][..i'] == tables[..i][1..];
    }
  }

  /** Row `j` of file `f` becomes row `TotalRows(files[..f]) + j` of the
      consolidated table: its date parsed, its period and readings kept. */
  lemma CombinedRow(files: seq<Table>, f: int, j: int)
    requires |files| == 6 && 0 <= f < 6 && 0 <= j < |files[f]|
    ensures var rows := ParseDates(Combined(files));
      TotalRows(files[..f]) + j < |rows| &&
      rows[TotalRows(files[..f]) + j] ==
        DatedRow(FileDate(f, files[f][j].settlementDate), files[f][j].period, files[f][j].readings)
  {
    var tables := files[..5] + [ReformatTable(files[5])];
    ConcatPosition(tables, f, j);
    assert tables[..f] == files[..f];
    if f < 5 {
      assert tables[f] == files[f];
    }
  }

  /** End to end: when the consolidation succeeds, every reading of every
      file that has a date and a period is counted in the resampled row of
      its own 6-hour window. */
  lemma ConsolidatedReading(files: seq<Table>, f: int, j: int)
    requires |files| == 6 && 0 <= f < 6 && 0 <= j < |files[f]|
    requires ConsolidateDemand(files).Success?
    requires FileDate(f, files[f][j].settlementDate).Some? && files[f][j].period.Some?
    ensures var out := ConsolidateDemand(files).value;
      var row := files[f][j];
      var t := Timestamp(FileDate(f, row.settlementDate).value, row.period.value);
      exists i :: 0 <= i < |out| && out[i].timestamp == BucketStart(t) &&
        DatedRow(FileDate(f, row.settlementDate), row.period, row.readings)
          in Assigned(ParseDates(Combined(files)), out[i].timestamp)
  {
    var rows := ParseDates(Combined(files));
    CombinedRow(files, f, j);
    var row := files[f][j];
    var k := TotalRows(files[..f]) + j;
    var t := Timestamp(FileDate(f, row.settlementDate).value, row.period.value);
    assert Stamp(rows[k]) == Some(t);
    ReadingInItsWindow(rows, k);
    var i := BucketIndex(t) - BucketIndex(MinOf(Stamps(rows)));
    assert 0 <= i < |ConsolidateDemand(files).value|;
  }

  /** Every period of the concatenated table is the period of some file row. */
  lemma PeriodFromFile(files: seq<Table>, k: int) returns (f: int, j: int)
    requires |files| == 6
    requires 0 <= k < |ParseDates(Combined(files))|
    ensures 0 <= f < 6 && 0 <= j < |files[f]|
    ensures ParseDates(Combined(files))[k].period == files[f][j].period
  {
    var tables := files[..5] + [ReformatTable(files[5])];
    assert Combined(files) == Concat(tables);
    f, j := RowOrigin(tables, k);
    assert tables[..f] == files[..f];
    assert |tables[f]| == |files[f]|;
    CombinedRow(files, f, j);
  }

  /** The readings of the consolidated table are the readings of the files:
      each timestamp there is the timestamp of some file row. */
  lemma StampFromFile(files: seq<Table>, k: int) returns (f: int, j: int)
    requires |files| == 6
    requires 0 <= k < |ParseDates(Combined(files))| && Stamp(ParseDates(Combined(files))[k]).Some?
    ensures 0 <= f < 6 && 0 <= j < |files[f]|
    ensures FileDate(f, files[f][j].settlementDate).Some? && files[f][j].period.Some?
    ensures Stamp(ParseDates(Combined(files))[k]).value ==
      Timestamp(FileDate(f, files[f][j].settlementDate).value, files[f][j].period.value)
  {
    var tables := files[..5] + [ReformatTable(files[5])];
    assert Combined(files) == Concat(tables);
    f, j := RowOrigin(tables, k);
    assert tables[..f] == files[..f];
    assert |tables[f]| == |files[f]|;
    CombinedRow(files, f, j);
    var row := files[f][j];
    assert ParseDates(Combined(files))[k] == DatedRow(FileDate(f, row.settlementDate), row.period, row.readings);
  }

  /** Six yearly files whose dated readings lie from 2017-01-01 00:00 up to
      2023-01-01 00:00, with one in the first window of 2017-01-01 and one in
      the last window of 2022-12-31, consolidate into 8764 rows: the
      figure the authors work out after line 40. */
  lemma ConsolidateSixYears(files: seq<Table>)
    requires |files| == 6
    requires forall f, j :: 0 <= f < 6 && 0 <= j < |files[f]| && files[f][j].period.Some? ==> OffsetInRange(files[f][j].period.value)
    requires forall f, j ::
      (0 <= f < 6 && 0 <= j < |files[f]| && FileDate(f, files[f][j].settlementDate).Some? && files[f][j].period.Some?) ==>
        DaysBeforeYear(2017) * 1440 <= Timestamp(FileDate(f, files[f][j].settlementDate).value, files[f][j].period.value) < DaysBeforeYear(2023) * 1440
    requires exists j :: 0 <= j < |files[0]| && FileDate(0, files[0][j].settlementDate) == Some(Date(2017, 1, 1)) && files[0][j].period.Some? && 1 <= files[0][j].period.value <= 12
    requires exists j :: 0 <= j < |files[5]| && FileDate(5, files[5][j].settlementDate) == Some(Date(2022, 12, 31)) && files[5][j].period.Some? && 37 <= files[5][j].period.value <= 48
    ensures ConsolidateDemand(files).Success?
    ensures |ConsolidateDemand(files).value| == 8764
  {
    var rows := ParseDates(Combined(files));
    forall k | 0 <= k < |rows| && Stamp(rows[k]).Some?
      ensures DaysBeforeYear(2017) * 1440 <= Stamp(rows[k]).value < DaysBeforeYear(2023) * 1440
    {
      var f, j := StampFromFile(files, k);
    }
    OffsetsOfFiles(files);
    var j0 :| 0 <= j0 < |files[0]| && FileDate(0, files[0][j0].settlementDate) == Some(Date(2017, 1, 1)) && files[0][j0].period.Some? && 1 <= files[0][j0].period.value <= 12;
    var j1 :| 0 <= j1 < |files[5]| && FileDate(5, files[5][j1].settlementDate) == Some(Date(2022, 12, 31)) && files[5][j1].period.Some? && 37 <= files[5][j1].period.value <= 48;
    CombinedRow(files, 0, j0);
    CombinedRow(files, 5, j1);
    SixYearWindowCount(rows);
  }

  /** A file row with a period whose offset pandas cannot hold, whatever
      its date. */
  predicate OffsetOverflowsAt(files: seq<Table>, f: int, j: int)
    requires 0 <= f < |files| && 0 <= j < |files[f]|
  {
    files[f][j].period.Some? && !OffsetInRange(files[f][j].period.value)
  }

  /** A file row that has a date and a period but whose timestamp pandas
      cannot represent. */
  predicate OverflowsAt(files: seq<Table>, f: int, j: int)
    requires 0 <= f < |files| && 0 <= j < |files[f]|
  {
    FileDate(f, files[f][j].settlementDate).Some? && files[f][j].period.Some? &&
    !StampInRange(Timestamp(FileDate(f, files[f][j].settlementDate).value, files[f][j].period.value))
  }

  /** The consolidation aborts with `OffsetOverflow` exactly when some row of
      some file has a period whose offset pandas cannot hold, and aborts at
      all exactly when, in addition, some row's timestamp is out of pandas'
      range; rows without a period never make it abort. */
  lemma ConsolidateFails(files: seq<Table>)
    requires |files| == 6
    ensures ConsolidateDemand(files) == Failure(OffsetOverflow) <==>
      exists f, j :: 0 <= f < 6 && 0 <= j < |files[f]| && OffsetOverflowsAt(files, f, j)
    ensures ConsolidateDemand(files).Failure? <==>
      exists f, j :: 0 <= f < 6 && 0 <= j < |files[f]| && (OffsetOverflowsAt(files, f, j) || OverflowsAt(files, f, j))
  {
    OffsetsOfFiles(files);
    StampsOfFiles(files);
  }

  /** A period of 5,124,097 is an offset of 153,722,880 minutes, which
      `to_timedelta` cannot hold, so the run aborts even on a date whose
      sum with that offset would still be a valid timestamp. */
  lemma LongOffsetFails(files: seq<Table>)
    requires |files| == 6 && |files[0]| > 0
    requires files[0][0] == RawRow(Some("01-JAN-1678"), Some(5124097), map[])
    ensures StampInRange(Timestamp(Date(1678, 1, 1), 5124097))
    ensures ConsolidateDemand(files) == Failure(OffsetOverflow)
  {
    RangeBounds();
    ConsolidateFails(files);
    assert OffsetOverflowsAt(files, 0, 0);
  }

  /** The concatenated table's offsets are all representable exactly when
      no file row has an offset overflow. */
  lemma OffsetsOfFiles(files: seq<Table>)
    requires |files| == 6
    ensures AllOffsetsInRange(ParseDates(Combined(files))) <==>
      !exists f, j :: 0 <= f < 6 && 0 <= j < |files[f]| && OffsetOverflowsAt(files, f, j)
  {
    var rows := ParseDates(Combined(files));
    if !AllOffsetsInRange(rows) {
      var k :| 0 <= k < |rows| && rows[k].period.Some? && !OffsetInRange(rows[k].period.value);
      var f, j := PeriodFromFile(files, k);
      assert OffsetOverflowsAt(files, f, j);
    }
    if exists f, j :: 0 <= f < 6 && 0 <= j < |files[f]| && OffsetOverflowsAt(files, f, j) {
      var f, j :| 0 <= f < 6 && 0 <= j < |files[f]| && OffsetOverflowsAt(files, f, j);
      CombinedRow(files, f, j);
      var k := TotalRows(files[..f]) + j;
      assert rows[k].period.Some? && !OffsetInRange(rows[k].period.value);
    }
  }

  /** The concatenated table's timestamps are all representable exactly
      when no file row has a timestamp overflow. */
  lemma StampsOfFiles(files: seq<Table>)
    requires |files| == 6
    ensures AllStampsInRange(ParseDates(Combined(files))) <==>
      !exists f, j :: 0 <= f < 6 && 0 <= j < |files[f]| && OverflowsAt(files, f, j)
  {
    var rows := ParseDates(Combined(files));
    if !AllStampsInRange(rows) {
      var k :| 0 <= k < |rows| && Stamp(rows[k]).Some? && !StampInRange(Stamp(rows[k]).value);
      var f, j := StampFromFile(files, k);
      assert OverflowsAt(files, f, j);
    } else {
      forall f, j | 0 <= f < 6 && 0 <= j < |files[f]|
        ensures !OverflowsAt(files, f, j)
      {
        CombinedRow(files, f, j);
        var k := TotalRows(files[..f]) + j;
        assert Stamp(rows[k]).Some? ==> StampInRange(Stamp(rows[k]).value);
      }
    }
  }

}

=== FILE: digits.dfy ===
/** Fixed-width decimal fields and ASCII case mapping, as used by the
    `%Y`, `%m`, `%d` directives of strftime/strptime and by `str.upper()`. */
module Digits {

  predicate IsDigit(c: char) {
    '0' <= c <= '9'
  }

  predicate AllDigits(s: string) {
    forall i :: 0 <= i < |s| ==> IsDigit(s[i])
  }

  function DigitChar(n: nat): char
    requires n < 10
  {
    ['0', '1', '2', '3', '4', '5', '6', '7', '8', '9'][n]
  }

  function DigitValue(c: char): nat
    requires IsDigit(c)
  {
    (c as int - '0' as int) as nat
  }

  function Pow10(k: nat): nat {
    if k == 0 then 1 else 10 * Pow10(k - 1)
  }

  /** The last `width` decimal digits of `n`, zero padded on the left. */
  function Pad(n: nat, width: nat): string
    decreases width
  {
    if width == 0 then "" else Pad(n / 10, width - 1) + [DigitChar(n % 10)]
  }

  /** The value of a string of decimal digits (the empty string reads as 0). */
  function ValueOf(s: string): nat
    requires AllDigits(s)
  {
    if |s| == 0 then 0 else ValueOf(s[..|s| - 1]) * 10 + DigitValue(s[|s| - 1])
  }

  lemma DigitRoundTrip(n: nat)
    requires n < 10
    ensures IsDigit(DigitChar(n)) && DigitValue(DigitChar(n)) == n
  {
  }

  /** Writing a number that fits into `width` digits and reading it back
      gives the number. */
  lemma {:induction false} PadRoundTrip(n: nat, width: nat)
    requires n < Pow10(width)
    ensures |Pad(n, width)| == width
    ensures AllDigits(Pad(n, width))
    ensures ValueOf(Pad(n, width)) == n
  {
    if width > 0 {
      var p := Pad(n / 10, width - 1);
      assert n / 10 < Pow10(width - 1);
      PadRoundTrip(n / 10, width - 1);
      DigitRoundTrip(n % 10);
      var s := p + [DigitChar(n % 10)];
      assert s[..|s| - 1] == p;
      assert ValueOf(s) == ValueOf(p) * 10 + n % 10;
    }
  }

  function UpperChar(c: char): char {
    if 'a' <= c <= 'z' then (c as int - 32) as char else c
  }

  function LowerChar(c: char): char {
    if 'A' <= c <= 'Z' then (c as int + 32) as char else c
  }

  /** ASCII upper-casing, character by character. */
  function Upper(s: string): string {
    seq(|s|, i requires 0 <= i < |s| => UpperChar(s[i]))
  }

  /** ASCII lower-casing, character by character. */
  function Lower(s: string): string {
    seq(|s|, i requires 0 <= i < |s| => LowerChar(s[i]))
  }

  /** Lower-casing a three-letter string, letter by letter. */
  lemma LowerThree(s: string)
    requires |s| == 3
    ensures Lower(s) == [LowerChar(s[0]), LowerChar(s[1]), LowerChar(s[2])]
  {
  }

  /** Case-insensitive comparison cannot tell a string from its upper-cased form. */
  lemma LowerOfUpper(s: string)
    ensures Lower(Upper(s)) == Lower(s)
  {
  }

  /** Upper-casing leaves digits and punctuation alone. */
  lemma UpperOfDigits(s: string)
    requires AllDigits(s)
    ensures Upper(s) == s
  {
  }

  lemma UpperAppend(a: string, b: string)
    ensures Upper(a + b) == Upper(a) + Upper(b)
  {
  }
}

=== FILE: pagination.dfy ===
/** The paging arithmetic shared by the table and the chart of the
    dashboard (`DashApp`): the page count shown by the pagination controls
    and the rows of the active page. */
module Pagination {
  import opened Wrappers

  /** Rows per page (`PAGE_SIZE`). */
  const PageSize: int := 100

  /** Lines 41 and 62, `max_value`: the number of pages. */
  function PageCount(n: nat): (c: nat)
    ensures n == 0 <==> c == 0
    ensures n > 0 ==> (c - 1) * PageSize < n <= c * PageSize
  {
    if n % PageSize != 0 then n / PageSize + 1 else n / PageSize
  }

  /** Python's normalisation of one slice bound against a length `n`: a
      negative bound counts from the end, and the result is clipped to
      `0..n`. */
  function SliceBound(i: int, n: nat): (r: nat)
    ensures r <= n
    ensures 0 <= i <= n ==> r == i
    ensures i > n ==> r == n
    ensures i < 0 && 0 <= i + n ==> r == i + n
    ensures i + n < 0 ==> r == 0
  {
    if i < 0 then (if i + n < 0 then 0 else i + n)
    else if i > n then n
    else i
  }

  /** `iloc[a:b]`: the rows from the normalised `a` up to the normalised `b`,
      empty when the bounds cross. */
  function Slice<T>(xs: seq<T>, a: int, b: int): seq<T> {
    var lo, hi := SliceBound(a, |xs|), SliceBound(b, |xs|);
    if lo < hi then xs[lo..hi] else []
  }

  /** The first `PAGE_SIZE` rows (line 30, `head`). */
  function Head<T>(xs: seq<T>): (r: seq<T>)
    ensures |r| == if |xs| < PageSize then |xs| else PageSize
    ensures r <= xs
  {
    if |xs| < PageSize then xs else xs[..PageSize]
  }

  /** Lines 135-137 and 148-154: the active page, `None` standing for page 1,
      is the slice `[(p - 1) * PAGE_SIZE : p * PAGE_SIZE]`. */
  function Page<T>(xs: seq<T>, active: Option<int>): seq<T> {
    var p := active.GetOr(1);
    Slice(xs, (p - 1) * PageSize, p * PageSize)
  }

  function Min(a: int, b: int): int {
    if a <= b then a else b
  }

  /** Page `p >= 1` holds exactly the rows `(p - 1) * 100` up to, not
      including, `min(p * 100, n)`; it is empty past the end. */
  lemma PageContents<T>(xs: seq<T>, p: int)
    requires p >= 1
    ensures (p - 1) * PageSize < |xs| ==> Page(xs, Some(p)) == xs[(p - 1) * PageSize .. Min(p * PageSize, |xs|)]
    ensures (p - 1) * PageSize >= |xs| ==> Page(xs, Some(p)) == []
  {
  }

  /** A missing page is page 1, and page 1 is the table's initial contents. */
  lemma DefaultPage<T>(xs: seq<T>)
    ensures Page(xs, None) == Page(xs, Some(1))
    ensures Page(xs, None) == Head(xs)
  {
  }

  /** Page 0 is empty: the slice `[-100:0]` ends before it starts. */
  lemma PageZero<T>(xs: seq<T>)
    ensures Page(xs, Some(0)) == []
  {
  }

  /** Pages `1..k` one after the other. */
  function Pages<T>(xs: seq<T>, k: nat): seq<T> {
    if k == 0 then [] else Pages(xs, k - 1) + Page(xs, Some(k))
  }

  /** The first `k` pages are the first `min(k * 100, n)` rows. */
  lemma {:induction false} PagesPrefix<T>(xs: seq<T>, k: nat)
    ensures Pages(xs, k) == xs[..Min(k * PageSize, |xs|)]
  {
    if k > 0 {
      PagesPrefix(xs, k - 1);
      PageContents(xs, k);
    }
  }

  /** Pages `1..PageCount(n)` reproduce the whole table. */
  lemma PagesCoverTable<T>(xs: seq<T>)
    ensures Pages(xs, PageCount(|xs|)) == xs
  {
    PagesPrefix(xs, PageCount(|xs|));
  }

  /** Row `i` lies on page `i / 100 + 1`, at position `i % 100`, and on no
      other page: the pages are pairwise disjoint. */
  lemma PageOfRow<T>(xs: seq<T>, i: int)
    requires 0 <= i < |xs|
    ensures 1 <= i / PageSize + 1 <= PageCount(|xs|)
    ensures var p := i / PageSize + 1;
      i % PageSize < |Page(xs, Some(p))| && Page(xs, Some(p))[i % PageSize] == xs[i]
    ensures forall q :: q >= 1 && (q - 1) * PageSize <= i < q * PageSize ==> q == i / PageSize + 1
  {
    var p := i / PageSize + 1;
    PageContents(xs, p);
    forall q | q >= 1 && (q - 1) * PageSize <= i < q * PageSize
      ensures q == p
    {
      PageIndexUnique(i, q);
    }
  }

  lemma PageIndexUnique(i: int, q: int)
    requires 0 <= i && (q - 1) * 100 <= i < q * 100
    ensures q == i / 100 + 1
  {
    var d := i / 100;
    assert i == 100 * d + i % 100;
    assert q - 1 > d ==> (q - 1) * 100 >= (d + 1) * 100;
    assert q - 1 < d ==> q * 100 <= d * 100;
  }

  /** The last page shown by the controls has rows; the next one has none. */
  lemma LastPage<T>(xs: seq<T>)
    requires |xs| > 0
    ensures |Page(xs, Some(PageCount(|xs|)))| > 0
    ensures Page(xs, Some(PageCount(|xs|) + 1)) == []
  {
    PageContents(xs, PageCount(|xs|));
    PageContents(xs, PageCount(|xs|) + 1);
  }

  /** Every page holds at most `PAGE_SIZE` rows. */
  lemma PageSizeBound<T>(xs: seq<T>, active: Option<int>)
    ensures |Page(xs, active)| <= PageSize
  {
  }
}

=== FILE: temperature.dfy ===
/** The temperature table restricted to the years of the demand data
    (`DataProcessor.creating_temperature_data`). */
module Temperature {
  import opened Wrappers
  import opened Calendar

  /** One temperature record: its observation time in minutes since
      0001-01-01 00:00 (missing when the cell was empty) and its reading. */
  datatype Observation = Observation(observedAt: Option<int>, tempC: Option<real>)

  /** 2023-01-01 00:00 in minutes: the first instant after the demand data. */
  function Cutoff(): (c: int)
    ensures c == Midnight(Date(2023, 1, 1))
    ensures c == DaysBeforeYear(2023) * 1440
  {
    1063468800
  }

  /** The comparison of line 52; a missing time compares false and drops. */
  predicate BeforeCutoff(o: Observation) {
    o.observedAt.Some? && o.observedAt.value < Cutoff()
  }

  /** Line 52: the records strictly before 2023-01-01 00:00, in file order. */
  function KeepBeforeCutoff(obs: seq<Observation>): (r: seq<Observation>)
    ensures |r| <= |obs|
    ensures forall o :: o in r <==> o in obs && BeforeCutoff(o)
  {
    if |obs| == 0 then []
    else
      var rest := KeepBeforeCutoff(obs[1..]);
      assert forall o :: o in obs <==> o == obs[0] || o in obs[1..];
      if BeforeCutoff(obs[0]) then [obs[0]] + rest else rest
  }

  /** The filter works record by record: filtering a file in two pieces
      and joining the results keeps the original order. */
  lemma {:induction false} KeepAppend(a: seq<Observation>, b: seq<Observation>)
    ensures KeepBeforeCutoff(a + b) == KeepBeforeCutoff(a) + KeepBeforeCutoff(b)
  {
    if |a| > 0 {
      assert (a + b)[1..] == a[1..] + b;
      KeepAppend(a[1..], b);
    } else {
      assert a + b == b;
    }
  }

  /** A single record survives exactly when it is before the cut-off. */
  lemma KeepOne(o: Observation)
    ensures KeepBeforeCutoff([o]) == if BeforeCutoff(o) then [o] else []
  {
    assert [o][1..] == [];
  }

  /** Every surviving record is before the cut-off, so filtering again
      changes nothing. */
  lemma {:induction false} KeepIdempotent(obs: seq<Observation>)
    ensures KeepBeforeCutoff(KeepBeforeCutoff(obs)) == KeepBeforeCutoff(obs)
  {
    if |obs| > 0 {
      KeepIdempotent(obs[1..]);
      var rest := KeepBeforeCutoff(obs[1..]);
      if BeforeCutoff(obs[0]) {
        assert ([obs[0]] + rest)[1..] == rest;
      }
    }
  }

  /** A file that already ends before 2023 passes through unchanged. */
  lemma {:induction false} KeepAllBefore(obs: seq<Observation>)
    requires forall k :: 0 <= k < |obs| ==> BeforeCutoff(obs[k])
    ensures KeepBeforeCutoff(obs) == obs
  {
    if |obs| > 0 {
      KeepAllBefore(obs[1..]);
    }
  }

  /** An observation dated in 2017-2022 is kept; one dated 2023 or later
      is not. */
  lemma KeepByYear(d: Date, minute: int, tempC: Option<real>)
    requires WellFormed(d) && 0 <= minute < 1440
    ensures d.year <= 2022 ==> BeforeCutoff(Observation(Some(Midnight(d) + minute), tempC))
    ensures d.year >= 2023 ==> !BeforeCutoff(Observation(Some(Midnight(d) + minute), tempC))
  {
    WithinYear(d);
    if d.year <= 2022 {
      DaysBeforeYearMonotone(d.year + 1, 2023);
    } else {
      DaysBeforeYearMonotone(2023, d.year);
    }
  }
}

=== FILE: wrappers.dfy ===
/** Wrappers used across the model: a missing value
    (pandas NaN / NaT) is `None`, an aborted run is a `Failure`. */
module Wrappers {

  datatype Option<+T> = None | Some(value: T) {

    /** The wrapped value, or `default` when missing. */
    function GetOr(default: T): T {
      match this
      case Some(v) => v
      case None => default
    }
  }

  datatype Result<+R, +E> = Success(value: R) | Failure(error: E)
}
